=== FILE: README.md ===
# Wallet profiler web: a Dafny model of the lookup path

This project models the part of the wallet-profiler web application that
turns a typed address into a rendered profile:

- the `GET /api/lookup` endpoint (`src/app/api/lookup/route.ts`). It reads
  the query, checks the address against the accepted formats, and reaches the
  profiler in one of two ways. With `PROFILER_API_URL` set it forwards the
  request to a remote profiler API. Otherwise it runs the profiler command
  line. It falls back to the Python module when spawning fails with `ENOENT`
  or when the shell reports the missing command in bash's wording. It
  then normalizes the profiler's document (`transformProfile`) and maps every
  failure to a 400 or 500 answer;
- the browser-side client `lookupWallet` (`src/lib/wallet-api.ts`);
- the search page (`src/app/page.tsx`): the form's state machine around one
  search (`handleSearch`), `shortenAddress`, the colour class of a label, and
  the cut of the transaction list to ten entries.

Everything the code reaches outside itself is a parameter:

- running a shell command (`exec`);
- `fetch`;
- `JSON.parse`;
- the environment variables, read into a `Config`.

Each transport returns the list of calls it made. That list is what lets the
model state "no profiler call for a bad request" and "exactly one fallback run".

Modules, one per file:

| module | file | contents |
|---|---|---|
| `Text` | text.dfy | string operations: truthiness and `\|\|`, `trim`, `includes`, `join` and number-to-text, which the code calls; first and last occurrence of a character, which the object pattern of `parseProfilerOutput` needs; and splitting on spaces, which stands for the shell cutting a command line into words |
| `Http` | http.dfy | query parameters and `searchParams.get`, URLs, fetch outcomes, parse results, the shared lookup query |
| `Wallet` | wallet.dfy | the profiler's raw document and the normalized profile the page renders |
| `Normalize` | normalize.dfy | `transformProfile` |
| `AddressFormat` | address.dfy | the address pattern, and a one-pass validator proved equal to it |
| `ProfilerOutput` | extract.dfy | `parseProfilerOutput` |
| `Transport` | transport.dfy | `executeProfiler` (local mode) and `fetchFromExternalAPI` (remote mode) |
| `LookupRoute` | lookup.dfy | the `GET` handler and end-to-end scenarios |
| `WalletApi` | client.dfy | `lookupWallet` |
| `SearchPage` | page.dfy | the search page |

A note on error messages. `parseProfilerOutput` throws inside the `try` of
`executeProfiler`, so the generic `catch` handles a parse failure:

- On the first command, the answer is `Profiler error: Failed to parse
  profiler output: SyntaxError: …`.
- On the fallback command, the parse failure is replaced by the "Failed to
  execute profiler…" message.

See `Transport.PrimaryParseFailureIsWrapped`.

## Model

| member | source | states |
|---|---|---|
| Text.Trim | src/app/page.tsx:94 | `trim` removes exactly the leading and trailing whitespace: the result is the slice of the input after its leading whitespace, everything after the result is whitespace, the result neither starts nor ends with whitespace, and it is empty exactly when the input is all whitespace |
| Text.TrimIdempotent | src/app/page.tsx:94 | trimming a trimmed string changes nothing |
| Text.ContainsMiddle | src/app/api/lookup/route.ts:85 | `includes` finds a text wherever it stands inside another |
| Text.MissingCharNotContained | src/app/api/lookup/route.ts:85 | `includes` cannot find a text holding a character the other text lacks |
| Text.SplitJoin | src/app/api/lookup/route.ts:69 | joining words that contain no separator and splitting the result on that separator gives back the words |
| Text.JoinAppend | src/app/api/lookup/route.ts:69 | joining two non-empty word lists is joining each with the separator between them |
| Text.NatToStringRoundTrip | src/lib/wallet-api.ts:34 | the decimal text of a status code reads back as that status code |
| Http.QueryGet | src/app/api/lookup/route.ts:181-184 | `searchParams.get` finds a value exactly when the key occurs, and the value is that of the key's first occurrence |
| Http.LookupQuery | src/app/api/lookup/route.ts:20-22 | the lookup query carries the address first, `chain` only when a non-empty chain is given, `refresh=true` only when refresh is set, and no other key |
| Normalize.FindPrimary | src/app/api/lookup/route.ts:139 | `find(d => d.is_primary)` stops at the first flagged entry and finds none exactly when no entry is flagged |
| Normalize.PrimaryDomain | src/app/api/lookup/route.ts:139-141 | the ENS name is one of the document's own non-empty domain names, and is null when the domain list is missing or empty |
| Normalize.PrimaryWinsAnywhere | src/app/api/lookup/route.ts:139 | the first domain flagged primary wins wherever it stands in the list, provided its name is non-empty |
| Normalize.FirstDomainFallback | src/app/api/lookup/route.ts:139-141 | when no entry is flagged primary, or the flagged one has an empty name, the first entry's name is reported, and null when that name is empty |
| Normalize.NormalizeChain | src/app/api/lookup/route.ts:143-147 | a chain entry keeps its chain, and its transaction count and balance when present, 0 otherwise |
| Normalize.PlatformOf | src/app/api/lookup/route.ts:155 | a string platform is kept as it is, a descriptor gives its `value` when that is non-empty and `unknown` otherwise, and an absent platform gives `unknown`; the platform is empty only when the document's platform is the empty string |
| Normalize.Transform | src/app/api/lookup/route.ts:137-178 | the normalized chains, NFTs and social links correspond one-to-one and in order to the raw lists; every NFT counts one; the token and transaction lists are always empty; the balance, counts, wallet age, DeFi protocols and first and last transaction dates are those of `on_chain`, with absent numbers 0 and absent lists []; the platform is the raw string, else the descriptor's value, else `unknown` |
| Normalize.TransformIsNormalizable | src/app/api/lookup/route.ts:137-178 | every normalized profile has no tokens and no transactions, counts every NFT once, and has an ENS name only when it is non-empty |
| Normalize.TransformRoundTrip | src/app/api/lookup/route.ts:137-178 | every profile of that shape is the normalization of a document written for it, so normalization loses and alters no field it carries |
| Normalize.EmptyDocumentDefaults | src/app/api/lookup/route.ts:160-177 | a document with no members normalizes to the all-default profile |
| AddressFormat.IsValidAddress | src/app/api/lookup/route.ts:193 | the anchored pattern with its three alternatives; an accepted address is non-empty, starts with a `[\w-]` character and ends with a letter or digit, so a leading or trailing dot is refused |
| AddressFormat.Validate | src/app/api/lookup/route.ts:193 | a single left-to-right pass accepts a string exactly when the anchored address pattern matches it |
| AddressFormat.DomainSplitIsFirstNonLabel | src/app/api/lookup/route.ts:193 | a domain-form address splits into label and suffix only at its first character outside `[\w-]` |
| AddressFormat.HexFormIsAlnumForm | src/app/api/lookup/route.ts:193 | every string the `0x` hexadecimal alternative accepts is also accepted by the 32-to-44 alphanumeric alternative |
| AddressFormat.NonHexPrefixedAccepted | src/app/api/lookup/route.ts:193 | `0x` followed by forty non-hexadecimal letters is accepted even though it is not a hexadecimal address |
| AddressFormat.MultiLabelRejected | src/app/api/lookup/route.ts:193 | a name with two dots such as `a.b.eth` is refused |
| AddressFormat.DomainHasOneDot | src/app/api/lookup/route.ts:193 | a domain-form address contains exactly one dot |
| AddressFormat.ValidAddressIsShellWord | src/app/api/lookup/route.ts:193 | every accepted address is one shell word, made of letters, digits, `_`, `-` and `.` only |
| ProfilerOutput.ObjectSpan | src/app/api/lookup/route.ts:123 | the greedy pattern matches exactly when some `{` precedes some `}`, and then spans from the first `{` to the last `}` |
| ProfilerOutput.ParsedText | src/app/api/lookup/route.ts:123-127 | the text handed to the parser is the matched span, which starts with `{` and ends with `}`, or else the trimmed output |
| ProfilerOutput.ParseProfilerOutput | src/app/api/lookup/route.ts:121-132 | the output yields a document exactly when the extracted text parses; a failure's message starts with `Failed to parse profiler output: SyntaxError: ` |
| ProfilerOutput.ProgressTextIgnored | src/app/api/lookup/route.ts:123-125 | progress text without `{` before the object and without `}` after it does not change what is parsed |
| Transport.BaseArgs | src/app/api/lookup/route.ts:59-67 | the arguments are the address, `--json`, `--quiet`, then `--chain <chain>` exactly when a non-empty chain is given, then `--refresh` last when refresh is set |
| Transport.PrimaryRequest | src/app/api/lookup/route.ts:69-73 | the first command line is `profiler lookup ` followed by the arguments joined by spaces, run in the server's own directory with a 10 MiB buffer and a 120000 ms timeout |
| Transport.FallbackRequest | src/app/api/lookup/route.ts:89-90 | the fallback command line is `python3 -m src.main lookup ` followed by the same arguments, run in the profiler's directory with the same buffer and timeout |
| Transport.CommandLineWords | src/app/api/lookup/route.ts:69 | when every word is a shell word, splitting the command line on spaces gives back the program words followed by the arguments |
| Transport.RequestsCarryBaseArgs | src/app/api/lookup/route.ts:69-89 | for an accepted address and a chain that is one shell word, both the primary and the fallback command lines consist of their program words followed by exactly the built arguments |
| Transport.ChainInjection | src/app/api/lookup/route.ts:61-69 | a chain of `ethereum --refresh` reaches the shell as two words, so the words the shell sees differ from the built arguments and end in `--refresh` although refresh is off |
| Transport.Run | src/app/api/lookup/route.ts:76-84 | one run yields a document exactly when the command exits and its output parses, and the document is the one parsed from its output; an exec failure reaches the `catch` unchanged, and a parse failure reaches it as a plain error without code, signal or stderr whose message is the parse failure's |
| Transport.IsNotFound | src/app/api/lookup/route.ts:85 | an `ENOENT` error always passes the not-found test; any other error passes only through bash's wording, so a message without a lowercase `c` never does |
| Transport.IsTimeout | src/app/api/lookup/route.ts:109 | a SIGTERM always counts as a timeout, and an error that reports only an exit status never does |
| Transport.GenericMessage | src/app/api/lookup/route.ts:113-114 | the profiler-error message starts with `Profiler error: ` and carries stderr when there is any, else the error's message, else `Unknown error occurred` |
| Transport.ExecuteProfilerWith | src/app/api/lookup/route.ts:75-115 | for any fallback test: the primary command runs first, and the fallback runs once, in the profiler's directory, exactly when the test accepts the first failure. A failed fallback names that directory. Otherwise a timeout gets its own message and any other failure is a profiler error |
| Transport.ExecuteProfiler | src/app/api/lookup/route.ts:54-116 | the primary command runs first. The fallback runs once, in the profiler's directory, exactly when the first run fails with a not-found error. A failed fallback names that directory. Otherwise a timeout gets its own message and any other failure is a profiler error |
| Transport.ExecuteProfilerCorrected | src/app/api/lookup/route.ts:85 | the corrected test falls back exactly when the first run failed as a missing command: the source's test, or the shell's exit status 127 whatever the shell printed |
| Transport.CorrectedAgreesOffExit127 | src/app/api/lookup/route.ts:85 | the corrected and the as-written local mode give the same outcome and calls whenever the first run does not end with exit status 127 |
| Transport.LocalMessagesNonEmpty | src/app/api/lookup/route.ts:103-114 | every error local mode throws has a non-empty message |
| Transport.PrimaryParseFailureIsWrapped | src/app/api/lookup/route.ts:82-84 | a primary run whose output does not parse fails after one call, as a profiler error that carries the parse failure |
| Transport.FetchFromApi | src/app/api/lookup/route.ts:15-38 | remote mode makes one request. It resolves exactly when the answer is OK and parses. A non-OK answer always throws a non-empty message: the body's `detail`, else `API returned ` and the status in decimal, else `Unknown error` when the body is not JSON. A rejected fetch propagates its message |
| Transport.RemoteStatusInMessage | src/app/api/lookup/route.ts:34 | the message of a non-OK remote answer without `detail` is `API returned ` and the status's decimal text, with no leading zero, and the status can be read back from it |
| LookupRoute.ReadQuery | src/app/api/lookup/route.ts:181-184 | the address is the first `address` parameter, an empty chain counts as absent, and refresh holds only for the exact text `true` |
| LookupRoute.Dispatch | src/app/api/lookup/route.ts:204-210 | the configuration selects the transport: every call is a fetch in remote mode and a command run in local mode, and at least one call is made |
| LookupRoute.HandleGet | src/app/api/lookup/route.ts:180-225 | a missing or empty address, then a malformed one, are answered 400 with no profiler call. A 400 happens exactly when no call is made. The configuration alone decides the kind of every call. A 500 always carries a non-empty error, and it carries the trace exactly in development |
| LookupRoute.DispatchFollowsConfig | src/app/api/lookup/route.ts:204-223 | a valid request reaches the transport the configuration selects, with the query's address, chain and refresh. The answer is the normalized document, or a 500 carrying the transport's message |
| LookupRoute.MissingAddressScenario | src/app/api/lookup/route.ts:186-191 | no address and an empty address both get `Address parameter is required` with no call |
| LookupRoute.MalformedAddressScenario | src/app/api/lookup/route.ts:193-198 | `not-an-address` gets `Invalid address or domain format` with no call |
| LookupRoute.VitalikIsValid | src/app/api/lookup/route.ts:193 | a checksummed 40-digit Ethereum address is accepted |
| LookupRoute.ColonFreeFailureNotFound | src/app/api/lookup/route.ts:85 | the message `exec` gives for a failed command line without a colon never passes the not-found test's `includes` |
| LookupRoute.PrimaryCommandColonFree | src/app/api/lookup/route.ts:59-69 | the primary command line built from an accepted address holds no colon |
| LookupRoute.LocalTimeout | src/app/api/lookup/route.ts:85-111 | in local mode, for any accepted address, a profiler run killed by the timeout (no code, SIGTERM, `Command failed: ` and the command line) does not pass the not-found test and gives a 500 with the timed-out message, after one call and no fallback |
| LookupRoute.TimeoutScenario | src/app/api/lookup/route.ts:109-111 | for the Vitalik address, the timed-out answer is a 500 whose error says the request timed out, after one call |
| LookupRoute.ModuleRunParses | src/app/api/lookup/route.ts:93-100 | a module run that prints a progress line before the document yields that document |
| LookupRoute.FallbackScenario | src/app/api/lookup/route.ts:85-100 | in local mode on a host whose `/bin/sh` is bash, with the command missing (exit status 127, bash's not-found text) and the module printing progress text before the document, the answer is a 200 with empty token and NFT lists and a zero balance, after two calls, the second in the profiler's directory |
| LookupRoute.DashErrorIsGeneric | src/app/api/lookup/route.ts:85-114 | dash's report of the missing command passes neither the not-found nor the timeout test, and becomes `Profiler error: ` followed by dash's text |
| LookupRoute.DashMissingCommandNotRecognized | src/app/api/lookup/route.ts:85 | on a host whose `/bin/sh` is dash, with the command missing, the answer is a 500 quoting dash after a single run, with no fallback |
| LookupRoute.DashMissingCommandCorrected | src/app/api/lookup/route.ts:85-100 | with the corrected test, the same host falls back and resolves to the module's document after two runs |
| LookupRoute.RateLimitedScenario | src/app/api/lookup/route.ts:32-35 | in remote mode, a 503 whose body has `detail` `rate limited` gives a 500 whose error is `rate limited` |
| WalletApi.ChainName | src/lib/wallet-api.ts:5 | every chain the options admit has a non-empty name |
| WalletApi.RequestUrl | src/lib/wallet-api.ts:22-30 | the client asks the page's own `/api/lookup` with the address first, `chain` exactly when one is given, and `refresh=true` exactly when refresh is `true`; an absent refresh counts as false |
| WalletApi.LookupWallet | src/lib/wallet-api.ts:21-38 | the client resolves exactly when the answer is OK and parses. A non-OK answer always throws a non-empty message: the body's `error`, else `HTTP ` and the status in decimal, else `Unknown error` when the body is not JSON. A rejected fetch propagates its message |
| WalletApi.NonOkAlwaysThrows | src/lib/wallet-api.ts:32-35 | a non-OK answer always throws a non-empty message. Without an `error` in the body, the message is `HTTP ` followed by the status's decimal text, with no leading zero, which reads back as the status |
| WalletApi.EndpointErrorSurfaces | src/lib/wallet-api.ts:32-34 | the endpoint's own 400 and 500 errors reach the caller's exception unchanged |
| WalletApi.EndpointReadsClientQuery | src/lib/wallet-api.ts:24-30 | the endpoint reads back exactly what the client sent: the address, the chosen chain's name, and the refresh flag, with an absent refresh read as false |
| SearchPage.ShortenAddress | src/app/page.tsx:81-83 | the short form is the first six characters, `...` and the last four, with shorter inputs contributing all they have |
| SearchPage.ShortFormDeterminesEnds | src/app/page.tsx:81-83 | an address of ten or more characters shortens to thirteen, and two addresses with the same short form share their first six and last four characters |
| SearchPage.ShortenExample | src/app/page.tsx:81-83 | the Vitalik address shortens to `0xd8dA...6045` |
| SearchPage.SearchUrl | src/app/page.tsx:101 | a search asks `/api/lookup` with the trimmed input as its only parameter, `address` |
| SearchPage.EndpointReadsSearch | src/app/page.tsx:101 | the endpoint reads a page search as the trimmed input with no chain and no refresh |
| SearchPage.MalformedSearchRefused | src/app/page.tsx:94-102 | a non-blank search whose trimmed text is not an accepted address is refused as malformed, with no profiler call |
| SearchPage.Step | src/app/page.tsx:92-115 | a blank submission does nothing; any other submission issues exactly one request and clears the error and profile while loading. A completion always clears loading. It shows a profile exactly when the answer is OK and JSON, and otherwise a non-empty error, `Failed to connect to server` when the fetch failed or the body is not JSON |
| SearchPage.StepPreservesInv | src/app/page.tsx:92-115 | an enabled step never leaves the page showing an error and a profile at once, or either of them while loading |
| SearchPage.RunBalances | src/app/page.tsx:96-113 | over any sequence of events the invariant holds, and the requests issued equal the completions plus the request in flight |
| SearchPage.AtMostOneInFlight | src/app/page.tsx:159 | starting from the empty page, the requests issued equal the completions plus the one in flight, so they exceed the completions by at most one |
| SearchPage.BadRequestShown | src/app/page.tsx:104-107 | a search answered 400 with an `error` shows that error and no profile, and clears loading |
| SearchPage.LabelClass | src/app/page.tsx:56-65 | a label gets its own colour exactly when it is one of the eight listed labels, and gray otherwise |
| SearchPage.LabelColorsDistinct | src/app/page.tsx:56-65 | the eight listed labels have eight different colours |
| SearchPage.LabelClassAsWritten | src/app/page.tsx:236 | the lookup as written gives listed labels their colour, but does not give gray to labels named like an inherited object member |
| SearchPage.LookupsAgreeOffPrototype | src/app/page.tsx:236 | the lookup as written and the own-key lookup agree on every label that is not an inherited member's name |
| SearchPage.ToStringLabelMisses | src/app/page.tsx:236 | a `toString` label is drawn with a function's source text as its class instead of gray |
| SearchPage.ConstructorLabelMisses | src/app/page.tsx:236 | a `constructor` label is drawn with the source text of `Object` as its class instead of gray |
| SearchPage.DisplayedTransactions | src/app/page.tsx:377 | the list shows the first ten transactions, or all of them when there are fewer, in order |
| SearchPage.DisplayedIdempotent | src/app/page.tsx:377 | cutting the list twice is cutting it once |
| SearchPage.NormalizedProfileShowsNoTransactions | src/app/page.tsx:375-377 | profiles the endpoint produces never list transactions, because normalization empties the list |

## Left out

- The shell, `fetch` and `JSON.parse` are parameters. The exec options are
  carried as data (a 10 MiB buffer, 120000 ms timeout, the fallback's working
  directory), but what exceeding them does is up to the `exec` parameter.
- `getProfilerPath` (src/app/api/lookup/route.ts:43-49) reads the environment
  and joins a path. The model takes its result as `Config.profilerPath`.
  `PROFILER_API_URL` and `NODE_ENV` are read into `Config` likewise.
- Percent-encoding of query values by `URLSearchParams` and
  `encodeURIComponent` is not modelled. Parameters hold decoded text.
- Strings are sequences of characters, while JavaScript strings are UTF-16
  code units. `slice(0, 6)` and `slice(-4)` in `shortenAddress` can split a
  surrogate pair, which the model cannot show. A lone surrogate cannot be
  represented either. In the browser it makes `encodeURIComponent` throw
  inside `handleSearch`'s `try`, which ends in `Failed to connect to server`.
- Fetch caching (`revalidate: 60`) and request headers are not modelled.
- JSON values are seen through the document's expected shape. The model
  leaves out `null` documents, members of the wrong type, and `error` or
  `detail` members that are not strings.
- The stack trace in a development 500 answer is a flag, not text.
- Console logging is left out. So is the stderr test for `Looking up`, which
  only decides whether to log.
- `formatNumber`, `formatBalance`, the copy-to-clipboard button and its
  `copied` flag, and the rest of the page's layout are not modelled. They do
  not affect what is looked up or shown as an error.
- Overlapping searches are not modelled. The submit button is disabled while
  loading (src/app/page.tsx:159), so the model disables submission then.
  Completions only arrive for the request in flight.
- src/app/layout.tsx is not part of this model.
- The raw document holds only the members of src/types/wallet.ts that the
  endpoint reads. The others are left out: `chain`, `confidence_score`,
  `resolved_at`, `cached`, `primary_domain`, `twitter_handle` and
  `has_identity` of the profile; `chain`, `text_records`, `avatar_url` and
  `resolved_at` of a domain; `confidence`, `source`, `verified_at` and
  `profile_url` of a social link; `top_interactions` and `gas_spent_usd` of the on-chain statistics;
  and `last_tx_date` of a chain entry.
- The token and transaction records the page declares (src/app/page.tsx:12-31)
  are modelled as types only. The endpoint never fills them.
- Amounts in USD are `real`. Floating-point rounding is not modelled.
- SearchPage.Step: the completion clauses about which of profile and error is
  shown assume no profile is shown when the request completes. This holds on
  every enabled run (`SearchPage.StepPreservesInv`).
- Transport.RequestsCarryBaseArgs: proved only for a chain that is one shell
  word. The endpoint does not check `chain`, so other chains are pasted into
  the command line as they are. In local mode a chain holding `;`, `|` or
  `$(…)` makes the server's shell run commands of the requester's choosing.

## Findings

| source | as written | input that shows it | evidently intended | confidence | as-written member | corrected member |
|---|---|---|---|---|---|---|
| src/app/page.tsx:236 | `LABEL_COLORS[label] \|\| gray` indexes an object literal, so a label named like an inherited member (`toString`, `constructor`, `__proto__`, …) finds that member. The member is truthy, so its text becomes the class | a profile whose `labels` contain `toString` | only the eight listed labels are coloured and every other label is gray | not executed | SearchPage.LabelClassAsWritten, SearchPage.ToStringLabelMisses | SearchPage.LabelClass |
| src/app/api/lookup/route.ts:85 | the fallback test looks for bash's wording `profiler: command not found`. `exec` runs the command through `/bin/sh`, and dash reports a missing command as `/bin/sh: 1: profiler: not found`, with exit status 127 | a host whose `/bin/sh` is dash and which has no `profiler` on its path | every missing command falls back to the Python module, whichever shell reports it | not executed | Transport.ExecuteProfiler, LookupRoute.DashMissingCommandNotRecognized | Transport.ExecuteProfilerCorrected, LookupRoute.DashMissingCommandCorrected |
| src/app/api/lookup/route.ts:61-69 | `chain` is pushed into the arguments unchecked and the arguments are joined into a shell command line | the query `chain=ethereum --refresh`, which adds a flag; a chain holding `;` or `$(…)` would run arbitrary commands on the server | the chain reaches the profiler as one argument | not executed | Transport.ChainInjection | Transport.RequestsCarryBaseArgs |

=== FILE: address.dfy ===
/** The endpoint's address check, the anchored pattern
    `^(0x[a-fA-F0-9]{40}|[A-Za-z0-9]{32,44}|[\w-]+\.(eth|sol|crypto|nft|wallet|blockchain|x|bitcoin|dao|888))$`
    in src/app/api/lookup/route.ts, with `\w` read as `[A-Za-z0-9_]` (the
    pattern has no `u` or `i` flag). */
module AddressFormat {
  import opened Text

  predicate IsHexDigit(c: char) {
    ('0' <= c <= '9') || ('a' <= c <= 'f') || ('A' <= c <= 'F')
  }

  predicate IsAlnum(c: char) {
    ('0' <= c <= '9') || ('a' <= c <= 'z') || ('A' <= c <= 'Z')
  }

  /** `[\w-]`. */
  predicate IsLabelChar(c: char) {
    IsAlnum(c) || c == '_' || c == '-'
  }

  /** The suffixes the third alternative accepts, case-sensitively. */
  const DomainSuffixes: set<string> :=
    {"eth", "sol", "crypto", "nft", "wallet", "blockchain", "x", "bitcoin", "dao", "888"}

  /** First alternative: `0x` and exactly forty hexadecimal digits. */
  predicate HexForm(s: string) {
    |s| == 42 && s[0] == '0' && s[1] == 'x' && forall i | 2 <= i < 42 :: IsHexDigit(s[i])
  }

  /** Second alternative: 32 to 44 ASCII letters and digits. */
  predicate AlnumForm(s: string) {
    32 <= |s| <= 44 && forall i | 0 <= i < |s| :: IsAlnum(s[i])
  }

  /** Third alternative: a non-empty `[\w-]` label, a dot, a known suffix. */
  predicate DomainForm(s: string) {
    exists i | 0 < i < |s| ::
      && s[i] == '.'
      && (forall j | 0 <= j < i :: IsLabelChar(s[j]))
      && s[i + 1..] in DomainSuffixes
  }

  /** The whole string matches one of the three alternatives. Being
      anchored, the pattern refuses a leading dot, a trailing dot and a
      trailing `_` or `-`. */
  predicate IsValidAddress(s: string): (ok: bool)
    ensures ok ==> s != "" && IsLabelChar(s[0]) && IsAlnum(s[|s| - 1])
  {
    DomainFormEnds(s);
    HexForm(s) || AlnumForm(s) || DomainForm(s)
  }

  /** A domain-form address starts with a label character and ends with the
      suffix's last letter or digit. */
  lemma DomainFormEnds(s: string)
    ensures DomainForm(s) ==> s != "" && IsLabelChar(s[0]) && IsAlnum(s[|s| - 1])
  {
    if DomainForm(s) {
      var i :| 0 < i < |s| && s[i] == '.' && (forall j | 0 <= j < i :: IsLabelChar(s[j]))
        && s[i + 1..] in DomainSuffixes;
      var suffix := s[i + 1..];
      SuffixIsAlnum(suffix);
      assert suffix != "";
      assert s[|s| - 1] == suffix[|suffix| - 1];
    }
  }

  /** A string can split into label, dot and suffix only at its first
      character outside `[\w-]`. */
  lemma DomainSplitIsFirstNonLabel(s: string, i: nat, k: nat)
    requires k <= |s| && forall j | 0 <= j < k :: IsLabelChar(s[j])
    requires k < |s| ==> !IsLabelChar(s[k])
    requires 0 < i < |s| && s[i] == '.' && forall j | 0 <= j < i :: IsLabelChar(s[j])
    ensures i == k
  {
  }

  /** The pattern match, as one left-to-right pass over the string: whether
      all characters are letters or digits, whether those after the first two
      are hexadecimal digits, and where the leading `[\w-]` run ends. */
  method Validate(s: string) returns (ok: bool)
    ensures ok <==> IsValidAddress(s)
  {
    var alnum, hex, inLabel := true, true, true;
    var k := 0;
    for i := 0 to |s|
      invariant alnum <==> forall j | 0 <= j < i :: IsAlnum(s[j])
      invariant hex <==> forall j | 2 <= j < i :: IsHexDigit(s[j])
      invariant k <= i && forall j | 0 <= j < k :: IsLabelChar(s[j])
      invariant inLabel <==> k == i
      invariant !inLabel ==> !IsLabelChar(s[k])
    {
      alnum := alnum && IsAlnum(s[i]);
      hex := hex && (i < 2 || IsHexDigit(s[i]));
      if inLabel && IsLabelChar(s[i]) {
        k := i + 1;
      } else {
        inLabel := false;
      }
    }
    var domain := 0 < k < |s| && s[k] == '.' && s[k + 1..] in DomainSuffixes;
    if DomainForm(s) {
      var i :| 0 < i < |s| && s[i] == '.' && (forall j | 0 <= j < i :: IsLabelChar(s[j]))
                && s[i + 1..] in DomainSuffixes;
      DomainSplitIsFirstNonLabel(s, i, k);
    }
    ok := (|s| == 42 && s[0] == '0' && s[1] == 'x' && hex) || (32 <= |s| <= 44 && alnum) || domain;
  }

  /** The first alternative adds nothing: `0x` and forty hexadecimal digits
      are 42 letters and digits, which the second alternative accepts. */
  lemma HexFormIsAlnumForm(s: string)
    requires HexForm(s)
    ensures AlnumForm(s)
  {
    forall i | 0 <= i < |s| ensures IsAlnum(s[i]) {
      if i >= 2 {
        assert IsHexDigit(s[i]);
      }
    }
  }

  /** So `0x` followed by forty non-hexadecimal letters passes the check. */
  lemma NonHexPrefixedAccepted()
    ensures var s := "0x" + seq(40, _ => 'g');
      IsValidAddress(s) && !HexForm(s)
  {
    var s := "0x" + seq(40, _ => 'g');
    assert s[2] == 'g';
    assert forall i | 0 <= i < |s| :: s[i] == '0' || s[i] == 'x' || s[i] == 'g';
  }

  /** A name with more than one dot is refused, whatever its suffix. */
  lemma MultiLabelRejected()
    ensures !IsValidAddress("a.b.eth")
  {
    var s := "a.b.eth";
    assert !IsAlnum(s[1]);
    forall i | 0 < i < |s| && s[i] == '.' && (forall j | 0 <= j < i :: IsLabelChar(s[j]))
      ensures s[i + 1..] !in DomainSuffixes
    {
      DomainSplitIsFirstNonLabel(s, i, 1);
      assert s[i + 1..] == "b.eth";
    }
  }

  /** No accepted suffix contains a dot. */
  lemma SuffixHasNoDot(t: string)
    requires t in DomainSuffixes
    ensures forall m | 0 <= m < |t| :: t[m] != '.'
  {
  }

  /** A domain-style address holds exactly one dot, after a non-empty label. */
  lemma DomainHasOneDot(s: string, i: nat, j: nat)
    requires DomainForm(s)
    requires i < j < |s| && s[i] == '.'
    ensures s[j] != '.'
  {
    var d :| 0 < d < |s| && s[d] == '.' && (forall m | 0 <= m < d :: IsLabelChar(s[m]))
              && s[d + 1..] in DomainSuffixes;
    SuffixHasNoDot(s[d + 1..]);
    assert d <= i;
    assert s[j] == s[d + 1..][j - d - 1];
  }

  /** Characters a POSIX shell passes through a word unchanged. */
  predicate IsShellSafe(c: char) {
    IsLabelChar(c) || c == '.'
  }

  /** A non-empty run of shell-safe characters: one shell word. */
  predicate IsShellWord(s: string) {
    s != "" && forall i | 0 <= i < |s| :: IsShellSafe(s[i])
  }

  /** A domain-style address is a single shell word: its label is `[\w-]`
      and its suffix letters and digits. */
  lemma DomainFormIsShellWord(s: string, d: nat)
    requires 0 < d < |s| && s[d] == '.' && (forall m | 0 <= m < d :: IsLabelChar(s[m]))
    requires s[d + 1..] in DomainSuffixes
    ensures IsShellWord(s)
  {
    var suffix := s[d + 1..];
    SuffixIsAlnum(suffix);
    forall m | d < m < |s| ensures IsShellSafe(s[m]) {
      assert s[m] == suffix[m - d - 1];
    }
  }

  /** Every accepted suffix is made of letters and digits. */
  lemma SuffixIsAlnum(t: string)
    requires t in DomainSuffixes
    ensures forall m | 0 <= m < |t| :: IsAlnum(t[m])
  {
  }

  /** Every accepted address is a single shell word. */
  lemma ValidAddressIsShellWord(s: string)
    requires IsValidAddress(s)
    ensures IsShellWord(s)
  {
    if HexForm(s) {
      HexFormIsAlnumForm(s);
    }
    if !AlnumForm(s) {
      var d :| 0 < d < |s| && s[d] == '.' && (forall m | 0 <= m < d :: IsLabelChar(s[m]))
                && s[d + 1..] in DomainSuffixes;
      DomainFormIsShellWord(s, d);
    }
  }
}

=== FILE: client.dfy ===
/** `lookupWallet` in src/lib/wallet-api.ts: the browser-side wrapper that
    builds the lookup query, calls the endpoint, and turns a non-OK answer
    into a thrown error. */
module WalletApi {
  import opened Text
  import opened Http
  import LookupRoute

  /** The chains `LookupOptions.chain` admits. */
  datatype ChainId = Ethereum | Solana | Polygon | Arbitrum | Optimism | Base

  function ChainName(c: ChainId): (name: string)
    ensures name != ""
  {
    match c
    case Ethereum => "ethereum"
    case Solana => "solana"
    case Polygon => "polygon"
    case Arbitrum => "arbitrum"
    case Optimism => "optimism"
    case Base => "base"
  }

  /** `LookupOptions`; an absent `refresh` defaults to `false`. */
  datatype LookupOptions = LookupOptions(address: string, chain: Option<ChainId>, refresh: Option<bool>)

  function ChainText(c: Option<ChainId>): Option<string> {
    match c
    case Some(id) => Some(ChainName(id))
    case None => None
  }

  /** The request target: `/api/lookup` on the page's own origin, with
      `address` always, `chain` exactly when one is given, and `refresh=true`
      exactly when refresh is `true`. */
  function RequestUrl(opts: LookupOptions): (u: Url)
    ensures u.base == "" && u.path == LookupPath
    ensures |u.query| >= 1 && u.query[0] == Param("address", opts.address)
    ensures QueryGet(u.query, "address") == Some(opts.address)
    ensures HasKey(u.query, "chain") <==> opts.chain.Some?
    ensures opts.chain.Some? ==> QueryGet(u.query, "chain") == Some(ChainName(opts.chain.value))
    ensures HasKey(u.query, "refresh") <==> opts.refresh == Some(true)
    ensures opts.refresh == Some(true) ==> QueryGet(u.query, "refresh") == Some("true")
  {
    Url("", LookupPath, LookupQuery(opts.address, ChainText(opts.chain), opts.refresh.GetOr(false)))
  }

  const UnknownError: string := "Unknown error"

  /** `lookupWallet`: one request to `RequestUrl(opts)`. A rejected fetch
      propagates; a non-OK answer throws the body's `error`, else
      `HTTP <status>`, and `Unknown error` when the body is not JSON; an OK
      answer resolves to the parsed body. */
  function LookupWallet<T>(opts: LookupOptions, fetch: Url -> FetchOutcome,
                           parse: string -> Parse<Doc<T>>): (r: Outcome<T>)
    ensures var res := fetch(RequestUrl(opts));
      && (r.Resolved? <==> res.Responded? && IsOkStatus(res.status) && parse(res.body).Parsed?)
      && (r.Resolved? ==> r.value == parse(res.body).value.view)
      && (res.Rejected? ==> r == Thrown(res.message))
      && (res.Responded? && IsOkStatus(res.status) && parse(res.body).SyntaxError? ==>
            r == Thrown(parse(res.body).message))
      && (res.Responded? && !IsOkStatus(res.status) ==> r.Thrown? && r.message != "")
      && (res.Responded? && !IsOkStatus(res.status) && parse(res.body).SyntaxError? ==>
            r.message == UnknownError)
      && (res.Responded? && !IsOkStatus(res.status) && parse(res.body).Parsed?
          && Truthy(StringField(parse(res.body).value, "error")) ==>
            r.message == StringField(parse(res.body).value, "error").value)
      && (res.Responded? && !IsOkStatus(res.status) && parse(res.body).Parsed?
          && !Truthy(StringField(parse(res.body).value, "error")) ==>
            r.message == "HTTP " + NatToString(res.status))
  {
    match fetch(RequestUrl(opts))
    case Rejected(m) => Thrown(m)
    case Responded(status, body) =>
      if !IsOkStatus(status) then
        match parse(body)
        case SyntaxError(_) => Thrown(UnknownError)
        case Parsed(doc) => Thrown(Or(StringField(doc, "error"), "HTTP " + NatToString(status)))
      else
        match parse(body)
        case Parsed(doc) => Resolved(doc.view)
        case SyntaxError(m) => Thrown(m)
  }

  /** A non-OK answer never resolves, and the message it throws is never
      empty: the body's `error` when that is a non-empty string, else a text
      naming the status. */
  lemma NonOkAlwaysThrows<T>(opts: LookupOptions, fetch: Url -> FetchOutcome,
                             parse: string -> Parse<Doc<T>>, status: nat, body: string)
    requires fetch(RequestUrl(opts)) == Responded(status, body) && !IsOkStatus(status)
    ensures var r := LookupWallet(opts, fetch, parse);
      && r.Thrown? && r.message != ""
      && (parse(body).Parsed? && !Truthy(StringField(parse(body).value, "error")) ==>
            && StartsWith(r.message, "HTTP ")
            && r.message[5..] == NatToString(status)
            && DigitsValue(r.message[5..]) == status)
  {
    var r := LookupWallet(opts, fetch, parse);
    if parse(body).Parsed? && !Truthy(StringField(parse(body).value, "error")) {
      assert r.message == "HTTP " + NatToString(status);
      assert r.message[5..] == NatToString(status);
      NatToStringRoundTrip(status);
    }
  }

  /** The endpoint's own 400 and 500 answers carry a non-empty `error`, so the
      client rethrows that text unchanged. */
  lemma EndpointErrorSurfaces<T>(opts: LookupOptions, fetch: Url -> FetchOutcome,
                                 parse: string -> Parse<Doc<T>>, status: nat, body: string,
                                 view: T, message: string)
    requires status == 400 || status == 500
    requires message != ""
    requires fetch(RequestUrl(opts)) == Responded(status, body)
    requires parse(body) == Parsed(Doc(view, map["error" := message]))
    ensures LookupWallet(opts, fetch, parse) == Thrown(message)
  {
  }

  /** The endpoint reads back exactly what the client sent: the address, the
      chain's name when one was chosen, and the refresh flag. */
  lemma EndpointReadsClientQuery(opts: LookupOptions)
    ensures LookupRoute.ReadQuery(RequestUrl(opts).query)
         == LookupRoute.LookupRequest(Some(opts.address), ChainText(opts.chain), opts.refresh.GetOr(false))
  {
  }
}

=== FILE: extract.dfy ===
/** `parseProfilerOutput` in src/app/api/lookup/route.ts: the JSON object is
    cut out of the profiler's standard output with the greedy pattern
    `\{[\s\S]*\}` (from the first `{` through the last `}`), or the trimmed
    output is parsed whole when there is no such span. */
module ProfilerOutput {
  import opened Text
  import opened Http
  import opened Wallet

  /** The `[start, end]` positions the pattern matches: the first `{` and the
      last `}`, provided that `}` comes after that `{`. */
  function ObjectSpan(s: string): (r: Option<(nat, nat)>)
    ensures r.Some? <==> exists i, j | 0 <= i < j < |s| :: s[i] == '{' && s[j] == '}'
    ensures r.Some? ==> r.value.0 < r.value.1 < |s|
    ensures r.Some? ==> s[r.value.0] == '{' && s[r.value.1] == '}'
    ensures r.Some? ==> forall k | 0 <= k < r.value.0 :: s[k] != '{'
    ensures r.Some? ==> forall k | r.value.1 < k < |s| :: s[k] != '}'
  {
    match (IndexOf(s, '{'), LastIndexOf(s, '}'))
    case (Some(i), Some(j)) =>
      if i < j then Some((i, j))
      else
        assert forall a, b | 0 <= a < b < |s| && s[a] == '{' && s[b] == '}' :: i <= a && b <= j;
        None
    case _ => None
  }

  /** The text handed to `JSON.parse`: the matched span, else the trimmed output. */
  function ParsedText(stdout: string): (t: string)
    ensures ObjectSpan(stdout).Some? ==> |t| >= 2 && t[0] == '{' && t[|t| - 1] == '}'
    ensures ObjectSpan(stdout).Some? ==>
      var (i, j) := ObjectSpan(stdout).value; t == stdout[i..j + 1]
    ensures ObjectSpan(stdout).None? ==> t == Trim(stdout)
  {
    match ObjectSpan(stdout)
    case Some((i, j)) => stdout[i..j + 1]
    case None => Trim(stdout)
  }

  const ParseFailurePrefix: string := "Failed to parse profiler output: "

  /** `parseProfilerOutput`: the parsed document, or an error whose message is
      `Failed to parse profiler output: ` followed by the stringified
      `SyntaxError`. */
  function ParseProfilerOutput(stdout: string, parse: string -> Parse<Doc<RawProfile>>): (r: Outcome<RawProfile>)
    ensures r.Resolved? <==> parse(ParsedText(stdout)).Parsed?
    ensures r.Resolved? ==> r.value == parse(ParsedText(stdout)).value.view
    ensures r.Thrown? ==> StartsWith(r.message, ParseFailurePrefix + "SyntaxError: ")
  {
    match parse(ParsedText(stdout))
    case Parsed(doc) => Resolved(doc.view)
    case SyntaxError(m) => Thrown(ParseFailurePrefix + "SyntaxError: " + m)
  }

  /** Progress text before the object and after it is ignored: an object
      (a text that starts with `{` and ends with `}`) preceded by text without
      `{` and followed by text without `}` is parsed exactly. */
  lemma ProgressTextIgnored(before: string, obj: string, after: string)
    requires |obj| >= 2 && obj[0] == '{' && obj[|obj| - 1] == '}'
    requires '{' !in before && '}' !in after
    ensures ParsedText(before + obj + after) == obj
  {
    var s := before + obj + after;
    var i, j := |before|, |before| + |obj| - 1;
    assert s[i] == '{' && s[j] == '}';
    forall k | 0 <= k < i ensures s[k] != '{' {
      assert s[k] == before[k];
    }
    forall k | j < k < |s| ensures s[k] != '}' {
      assert s[k] == after[k - |before| - |obj|];
    }
    IndexOfIs(s, '{', i);
    LastIndexOfIs(s, '}', j);
    assert s[i..j + 1] == obj;
  }
}

=== FILE: http.dfy ===
/** The web-platform pieces the application talks through: query parameters,
    request URLs, what `fetch` resolves to, and `JSON.parse` taken as an
    uninterpreted partial function. */
module Http {
  import opened Text

  /** One query parameter, in the order `URLSearchParams` keeps them.
      Percent-encoding is not modelled: keys and values are the decoded text. */
  datatype Param = Param(key: string, value: string)

  /** A request target: a base (empty for the page's own origin), a path and
      the ordered query parameters. */
  datatype Url = Url(base: string, path: string, query: seq<Param>)

  /** The path of the lookup endpoint, on this server and on the remote profiler. */
  const LookupPath: string := "/api/lookup"

  predicate HasKey(query: seq<Param>, key: string) {
    exists i | 0 <= i < |query| :: query[i].key == key
  }

  /** `searchParams.get(key)`: the value of the first parameter with that key. */
  function QueryGet(query: seq<Param>, key: string): (r: Option<string>)
    ensures r.Some? <==> HasKey(query, key)
    ensures r.Some? ==> exists i | 0 <= i < |query| ::
      query[i] == Param(key, r.value) && forall j | 0 <= j < i :: query[j].key != key
  {
    if |query| == 0 then None
    else if query[0].key == key then Some(query[0].value)
    else
      var r := QueryGet(query[1..], key);
      if r.Some? then
        ghost var i :| 0 <= i < |query[1..]| && query[1..][i] == Param(key, r.value)
                     && forall j | 0 <= j < i :: query[1..][j].key != key;
        assert query[i + 1] == Param(key, r.value);
        r
      else
        r
  }

  /** What a `fetch` call settled to: rejected with an error message, or
      resolved to a response with a status code and a body text. */
  datatype FetchOutcome = Rejected(message: string) | Responded(status: nat, body: string)

  /** `response.ok`. */
  predicate IsOkStatus(status: nat) {
    200 <= status <= 299
  }

  /** The result of `JSON.parse`: a value, or the `SyntaxError` it throws. */
  datatype Parse<T> = Parsed(value: T) | SyntaxError(message: string)

  /** A parsed JSON object as the code reads it: `view` is the object seen
      through the type the caller expects (every field optional), `strings`
      its top-level string-valued members such as `error` and `detail`. */
  datatype Doc<T> = Doc(view: T, strings: map<string, string>)

  /** `doc.key` for a member that is a string or absent. */
  function StringField<T>(doc: Doc<T>, key: string): Option<string> {
    if key in doc.strings then Some(doc.strings[key]) else None
  }

  /** How an awaited call settled: resolved with a value, or rejected with an
      `Error` whose `message` is given. */
  datatype Outcome<T> = Resolved(value: T) | Thrown(message: string)

  /** The lookup query the client and the endpoint's remote mode both build:
      `address`, then `chain` when a non-empty one is given, then
      `refresh=true` when refresh is set. */
  function LookupQuery(address: string, chain: Option<string>, refresh: bool): (q: seq<Param>)
    ensures |q| >= 1 && q[0] == Param("address", address)
    ensures QueryGet(q, "address") == Some(address)
    ensures QueryGet(q, "chain") == (if Truthy(chain) then chain else None)
    ensures QueryGet(q, "refresh") == (if refresh then Some("true") else None)
    ensures forall i | 0 <= i < |q| :: q[i].key in {"address", "chain", "refresh"}
  {
    var tail := if refresh then [Param("refresh", "true")] else [];
    var q := [Param("address", address)]
      + (if Truthy(chain) then [Param("chain", chain.value)] else []) + tail;
    assert QueryGet(tail, "refresh") == (if refresh then Some("true") else None);
    if Truthy(chain) then
      assert q[1..][1..] == tail;
      q
    else
      assert q[1..] == tail;
      q
  }
}

=== FILE: lookup.dfy ===
/** The `GET` handler of src/app/api/lookup/route.ts: read the query,
    validate the address, reach the profiler through the transport the
    configuration selects, normalize the document, and map failures to 400
    and 500 responses. */
module LookupRoute {
  import opened Text
  import opened Http
  import opened Wallet
  import opened Transport
  import AddressFormat
  import Normalize

  /** Environment-derived configuration, read once: `PROFILER_API_URL`
      (empty when unset), the profiler directory `getProfilerPath` resolves
      to, and `NODE_ENV`. */
  datatype Config = Config(apiUrl: string, profilerPath: string, nodeEnv: string)

  /** The response: 200 with the normalized profile, 400 with an error, or
      500 with an error and, in development, the error's stack trace. */
  datatype Response =
    | Ok(profile: WalletProfile)
    | BadRequest(error: string)
    | ServerError(error: string, exposesTrace: bool)

  /** A response and the external calls issued to produce it. */
  datatype Handled = Handled(response: Response, calls: seq<Call>)

  const AddressRequired: string := "Address parameter is required"
  const InvalidAddress: string := "Invalid address or domain format"
  const FetchFailed: string := "Failed to fetch wallet profile"

  /** The query as the handler reads it. */
  datatype LookupRequest = LookupRequest(address: Option<string>, chain: Option<string>, refresh: bool)

  /** `address` is the first `address` parameter; an empty `chain` counts as
      absent; `refresh` holds only for the exact text `true`. */
  function ReadQuery(query: seq<Param>): (r: LookupRequest)
    ensures r.address == QueryGet(query, "address")
    ensures r.chain.Some? <==> Truthy(QueryGet(query, "chain"))
    ensures r.chain.Some? ==> r.chain == QueryGet(query, "chain") && r.chain.value != ""
    ensures r.refresh <==> QueryGet(query, "refresh") == Some("true")
  {
    var chain := QueryGet(query, "chain");
    LookupRequest(QueryGet(query, "address"), if Truthy(chain) then chain else None,
                  QueryGet(query, "refresh") == Some("true"))
  }

  /** Remote mode is selected by a non-empty `PROFILER_API_URL`. */
  predicate RemoteMode(cfg: Config) {
    cfg.apiUrl != ""
  }

  /** The transport the configuration selects, given the request's address,
      chain and refresh flag. At least one call is made, and every call is of
      the selected kind. */
  function Dispatch(cfg: Config, address: string, chain: Option<string>, refresh: bool, env: Env): (t: Transported)
    ensures |t.calls| >= 1
    ensures RemoteMode(cfg) ==> forall i | 0 <= i < |t.calls| :: t.calls[i].Fetch?
    ensures !RemoteMode(cfg) ==> forall i | 0 <= i < |t.calls| :: t.calls[i].Exec?
  {
    if RemoteMode(cfg) then FetchFromApi(cfg.apiUrl, address, chain, refresh, env)
    else ExecuteProfiler(address, chain, refresh, cfg.profilerPath, env)
  }

  /** The handler. */
  function HandleGet(query: seq<Param>, cfg: Config, env: Env): (h: Handled)
    ensures var req := ReadQuery(query);
      && (!Truthy(req.address) ==> h == Handled(BadRequest(AddressRequired), []))
      && (Truthy(req.address) && !AddressFormat.IsValidAddress(req.address.value) ==>
            h == Handled(BadRequest(InvalidAddress), []))
    ensures h.response.BadRequest? <==> h.calls == []
    ensures h.response.BadRequest? <==>
      var a := ReadQuery(query).address; !Truthy(a) || !AddressFormat.IsValidAddress(a.value)
    ensures RemoteMode(cfg) ==> forall i | 0 <= i < |h.calls| :: h.calls[i].Fetch?
    ensures !RemoteMode(cfg) ==> forall i | 0 <= i < |h.calls| :: h.calls[i].Exec?
    ensures h.response.ServerError? ==> h.response.error != ""
    ensures h.response.ServerError? ==> h.response.exposesTrace == (cfg.nodeEnv == "development")
  {
    var req := ReadQuery(query);
    if !Truthy(req.address) then Handled(BadRequest(AddressRequired), [])
    else if !AddressFormat.IsValidAddress(req.address.value) then Handled(BadRequest(InvalidAddress), [])
    else
      var address := req.address.value;
      var t := Dispatch(cfg, address, req.chain, req.refresh, env);
      match t.outcome
      case Resolved(raw) => Handled(Ok(Normalize.Transform(raw)), t.calls)
      case Thrown(m) => Handled(ServerError(Or(Some(m), FetchFailed), cfg.nodeEnv == "development"), t.calls)
  }

  /** A valid request reaches the transport the configuration names, with the
      address, chain and refresh flag read from the query, and the response
      is exactly what that transport's outcome maps to. */
  lemma DispatchFollowsConfig(query: seq<Param>, cfg: Config, env: Env)
    requires var a := ReadQuery(query).address; Truthy(a) && AddressFormat.IsValidAddress(a.value)
    ensures var req := ReadQuery(query);
      var t := if RemoteMode(cfg) then FetchFromApi(cfg.apiUrl, req.address.value, req.chain, req.refresh, env)
               else ExecuteProfiler(req.address.value, req.chain, req.refresh, cfg.profilerPath, env);
      var h := HandleGet(query, cfg, env);
      && h.calls == t.calls
      && (t.outcome.Resolved? ==> h.response == Ok(Normalize.Transform(t.outcome.value)))
      && (t.outcome.Thrown? ==>
            && h.response.ServerError?
            && h.response.error == (if t.outcome.message != "" then t.outcome.message else FetchFailed))
  {
  }

  // ---------------------------------------------------------------------
  // scenarios

  /** A request without an address, or with an empty one, is refused before
      the format test. */
  lemma MissingAddressScenario(cfg: Config, env: Env)
    ensures HandleGet([], cfg, env) == Handled(BadRequest(AddressRequired), [])
    ensures HandleGet([Param("address", "")], cfg, env) == Handled(BadRequest(AddressRequired), [])
  {
  }

  /** `?address=not-an-address` is refused as malformed. */
  lemma MalformedAddressScenario(cfg: Config, env: Env)
    ensures HandleGet([Param("address", "not-an-address")], cfg, env) == Handled(BadRequest(InvalidAddress), [])
  {
    var s := "not-an-address";
    assert |s| == 14;
    assert forall i | 0 <= i < |s| :: s[i] != '.';
    assert !AddressFormat.IsValidAddress(s);
    assert ReadQuery([Param("address", s)]).address == Some(s);
  }

  const Vitalik: string := "0xd8dA6BF26964aF9D7eEd9e03E53415D37aA96045"

  lemma VitalikIsValid()
    ensures AddressFormat.IsValidAddress(Vitalik)
  {
    assert forall i | 0 <= i < |Vitalik| :: AddressFormat.IsAlnum(Vitalik[i]);
  }

  /** The start of every error message `exec` gives for a command that failed. */
  const CommandFailed: string := "Command failed: "

  /** A profiler run killed by the timeout: `exec` sends SIGTERM and reports
      no code, the signal, the (here empty) stderr, and `Command failed: `
      with the command line. */
  function TimedOutExec(req: ExecRequest): ExecOutcome {
    ExecFailed(ExecError(NoCode, Some("SIGTERM"), "", CommandFailed + req.command + "\n"))
  }

  /** A failure message whose command line holds no colon never contains the
      not-found marker: the marker's colon could only be the one after
      `Command failed`, and the text before that colon is not `profiler`. */
  lemma ColonFreeFailureNotFound(command: string)
    requires ':' !in command
    ensures !Contains(CommandFailed + command + "\n", NotFoundMarker)
  {
    var msg := CommandFailed + command + "\n";
    var m := NotFoundMarker;
    assert |CommandFailed| == 16 && |m| == 27;
    assert m[0] == 'p' && m[8] == ':';
    forall i | 0 <= i <= |msg| ensures !StartsWith(msg[i..], m) {
      if |msg| - i >= |m| {
        if i == 6 {
          assert msg[i..][0] == CommandFailed[6] == 'd';
        } else {
          var j := i + 8;
          assert msg[i..][8] == msg[j];
          if j < 16 {
            assert msg[j] == CommandFailed[j];
            assert j != 14;
            assert forall k | 0 <= k < 16 && k != 14 :: CommandFailed[k] != ':';
          } else {
            assert msg[j] == command[j - 16];
          }
        }
      }
    }
  }

  /** The primary command line for an accepted address and no chain holds no colon. */
  lemma PrimaryCommandColonFree(address: string, refresh: bool)
    requires AddressFormat.IsValidAddress(address)
    ensures ':' !in PrimaryRequest(BaseArgs(address, None, refresh)).command
  {
    var args := BaseArgs(address, None, refresh);
    var words := PrimaryPrefix + args;
    AddressFormat.ValidAddressIsShellWord(address);
    assert ':' !in address by {
      assert !AddressFormat.IsShellSafe(':');
    }
    forall i | 0 <= i < |words| ensures ':' !in words[i] {
      if i != 2 {
        assert words[i] in {"profiler", "lookup", "--json", "--quiet", "--refresh"};
      }
    }
    JoinAvoidsChar(words, " ", ':');
  }

  /** Local mode, the profiler run times out: for any accepted address, a
      500 saying the request timed out, after a single run. */
  lemma LocalTimeout(address: string, profilerPath: string, nodeEnv: string,
                     parse: string -> Parse<Doc<RawProfile>>, fetch: Url -> FetchOutcome)
    requires AddressFormat.IsValidAddress(address)
    ensures var h := HandleGet([Param("address", address)], Config("", profilerPath, nodeEnv),
                               Env(TimedOutExec, fetch, parse));
      && h.response == ServerError(TimedOutMessage, nodeEnv == "development")
      && |h.calls| == 1
  {
    var env := Env(TimedOutExec, fetch, parse);
    var primary := PrimaryRequest(BaseArgs(address, None, false));
    var e := ExecError(NoCode, Some("SIGTERM"), "", CommandFailed + primary.command + "\n");
    assert Run(primary, env) == Caught(e);
    PrimaryCommandColonFree(address, false);
    ColonFreeFailureNotFound(primary.command);
    assert !IsNotFound(e) && IsTimeout(e);
    DispatchFollowsConfig([Param("address", address)], Config("", profilerPath, nodeEnv), env);
  }

  /** The same for the Vitalik address; the message says it timed out. */
  lemma TimeoutScenario(profilerPath: string, nodeEnv: string,
                        parse: string -> Parse<Doc<RawProfile>>, fetch: Url -> FetchOutcome)
    ensures var h := HandleGet([Param("address", Vitalik)], Config("", profilerPath, nodeEnv),
                               Env(TimedOutExec, fetch, parse));
      && h.response.ServerError? && Contains(h.response.error, "timed out")
      && |h.calls| == 1
  {
    VitalikIsValid();
    LocalTimeout(Vitalik, profilerPath, nodeEnv, parse, fetch);
    TimedOutMentionsTimeout();
  }

  lemma TimedOutMentionsTimeout()
    ensures Contains(TimedOutMessage, "timed out")
  {
    assert StartsWith(TimedOutMessage[17..], "timed out");
  }

  /** The profiler's document in the fallback scenario, and what it parses to. */
  const ScenarioDoc: string :=
    "{" + "\"address\":\"0xabc\",\"domains\":[],\"social_links\":[],\"labels\":[],\"on_chain\":{}" + "}"
  const ScenarioRaw: RawProfile := RawProfile(Some("0xabc"), Some([]), Some([]), Some([]), Some(EmptyOnChain))

  /** What `/bin/sh` prints for a program not on the path: bash's wording,
      which the source looks for, and dash's. */
  const BashNotFound: string := "/bin/sh: " + NotFoundMarker + "\n"
  const DashNotFound: string := "/bin/sh: 1: profiler: not found\n"

  /** How `exec` reports a command line the shell gave up on with exit
      status 127: the shell's text as stderr, and `Command failed: `, the
      command line and that text as the message. */
  function ShellExit127(req: ExecRequest, stderr: string): ExecError {
    ExecError(ExitStatus(127), None, stderr, CommandFailed + req.command + "\n" + stderr)
  }

  /** A machine without `profiler` on its path, whose shell prints `stderr`
      for it, and whose module entry point prints a progress line and then
      the document. */
  function MissingBinaryOn(stderr: string, req: ExecRequest): ExecOutcome {
    if req.cwd.None? then ExecFailed(ShellExit127(req, stderr))
    else Exited("Looking up...\n" + ScenarioDoc, "")
  }

  function BashMissingBinary(req: ExecRequest): ExecOutcome {
    MissingBinaryOn(BashNotFound, req)
  }

  function DashMissingBinary(req: ExecRequest): ExecOutcome {
    MissingBinaryOn(DashNotFound, req)
  }

  function ScenarioParse(t: string): Parse<Doc<RawProfile>> {
    if t == ScenarioDoc then Parsed(Doc(ScenarioRaw, map[])) else SyntaxError("Unexpected token")
  }

  /** The module entry point's output yields the scenario's document. */
  lemma ModuleRunParses(req: ExecRequest, env: Env)
    requires env.exec(req) == Exited("Looking up...\n" + ScenarioDoc, "")
    requires env.parse == ScenarioParse
    ensures Run(req, env) == Got(ScenarioRaw)
  {
    var doc := ScenarioDoc;
    assert doc[0] == '{' && doc[|doc| - 1] == '}';
    ProfilerOutput.ProgressTextIgnored("Looking up...\n", doc, "");
    assert "Looking up...\n" + doc + "" == "Looking up...\n" + doc;
  }

  /** Local mode on a host whose `/bin/sh` is bash, `profiler` missing and
      the module fallback printing a progress line before the document: a
      200 with empty token and NFT lists and a zero balance, after exactly
      two runs, the second in the profiler's directory. */
  lemma FallbackScenario(profilerPath: string, nodeEnv: string, fetch: Url -> FetchOutcome)
    ensures var h := HandleGet([Param("address", Vitalik)], Config("", profilerPath, nodeEnv),
                               Env(BashMissingBinary, fetch, ScenarioParse));
      && h.response.Ok?
      && h.response.profile.tokens == [] && h.response.profile.nfts == []
      && h.response.profile.totalBalanceUsd == 0.0
      && |h.calls| == 2 && h.calls[1].request.cwd == Some(profilerPath)
  {
    var env := Env(BashMissingBinary, fetch, ScenarioParse);
    var query := [Param("address", Vitalik)];
    var cfg := Config("", profilerPath, nodeEnv);
    VitalikIsValid();
    var args := BaseArgs(Vitalik, None, false);
    var primary := PrimaryRequest(args);
    var e := ShellExit127(primary, BashNotFound);
    assert Run(primary, env) == Caught(e);
    var before := CommandFailed + primary.command + "\n" + "/bin/sh: ";
    assert e.message == before + NotFoundMarker + "\n";
    ContainsMiddle(before, NotFoundMarker, "\n");
    assert IsNotFound(e);
    ModuleRunParses(FallbackRequest(args, profilerPath), env);
    DispatchFollowsConfig(query, cfg, env);
  }

  /** The primary command line for the Vitalik address holds no lowercase `c`. */
  lemma VitalikCommandHasNoC()
    ensures 'c' !in PrimaryRequest(BaseArgs(Vitalik, None, false)).command
  {
    var words := PrimaryPrefix + BaseArgs(Vitalik, None, false);
    assert words == ["profiler", "lookup", Vitalik, "--json", "--quiet"];
    assert forall i | 0 <= i < |Vitalik| :: Vitalik[i] != 'c';
    JoinAvoidsChar(words, " ", 'c');
  }

  /** Dash's report of the missing command passes neither the not-found nor
      the timeout test, so it is reported as a profiler error quoting dash. */
  lemma DashErrorIsGeneric()
    ensures var e := ShellExit127(PrimaryRequest(BaseArgs(Vitalik, None, false)), DashNotFound);
      && !IsNotFound(e) && !IsTimeout(e)
      && GenericMessage(e) == ProfilerErrorPrefix + DashNotFound
  {
    var e := ShellExit127(PrimaryRequest(BaseArgs(Vitalik, None, false)), DashNotFound);
    VitalikCommandHasNoC();
    assert forall i | 0 <= i < |DashNotFound| :: DashNotFound[i] != 'c';
    assert forall i | 0 <= i < |CommandFailed| :: CommandFailed[i] != 'c';
    assert 'c' !in e.message;
    assert NotFoundMarker[10] == 'c';
    MissingCharNotContained(e.message, NotFoundMarker, 'c');
  }

  /** The same host with dash as `/bin/sh`: dash's wording does not contain
      bash's, so the fallback is never tried and the answer is a 500 quoting
      the shell, after a single run. */
  lemma DashMissingCommandNotRecognized(profilerPath: string, nodeEnv: string, fetch: Url -> FetchOutcome)
    ensures var h := HandleGet([Param("address", Vitalik)], Config("", profilerPath, nodeEnv),
                               Env(DashMissingBinary, fetch, ScenarioParse));
      h == Handled(ServerError(ProfilerErrorPrefix + DashNotFound, nodeEnv == "development"),
                   [Exec(PrimaryRequest(BaseArgs(Vitalik, None, false)))])
  {
    var env := Env(DashMissingBinary, fetch, ScenarioParse);
    VitalikIsValid();
    var primary := PrimaryRequest(BaseArgs(Vitalik, None, false));
    assert Run(primary, env) == Caught(ShellExit127(primary, DashNotFound));
    DashErrorIsGeneric();
    DispatchFollowsConfig([Param("address", Vitalik)], Config("", profilerPath, nodeEnv), env);
  }

  /** With the corrected test, the dash host falls back and gets its profile. */
  lemma DashMissingCommandCorrected(profilerPath: string, fetch: Url -> FetchOutcome)
    ensures var t := ExecuteProfilerCorrected(Vitalik, None, false, profilerPath,
                                              Env(DashMissingBinary, fetch, ScenarioParse));
      && t.outcome == Resolved(ScenarioRaw)
      && |t.calls| == 2
  {
    var env := Env(DashMissingBinary, fetch, ScenarioParse);
    var args := BaseArgs(Vitalik, None, false);
    assert Run(PrimaryRequest(args), env) == Caught(ShellExit127(PrimaryRequest(args), DashNotFound));
    ModuleRunParses(FallbackRequest(args, profilerPath), env);
  }

  /** Remote mode answering 503 with `{"detail":"rate limited"}`: a 500 whose
      error is `rate limited`. */
  lemma RateLimitedScenario(apiUrl: string, profilerPath: string, nodeEnv: string,
                            exec: ExecRequest -> ExecOutcome, raw: RawProfile)
    requires apiUrl != ""
    ensures
      var body := "{\"detail\":\"rate limited\"}";
      var fetch := (u: Url) => Responded(503, body);
      var parse := (t: string) => if t == body then Parsed(Doc(raw, map["detail" := "rate limited"]))
                                  else SyntaxError("Unexpected token");
      var h := HandleGet([Param("address", Vitalik)], Config(apiUrl, profilerPath, nodeEnv), Env(exec, fetch, parse));
      h.response == ServerError("rate limited", nodeEnv == "development")
  {
    VitalikIsValid();
  }
}

=== FILE: normalize.dfy ===
/** The endpoint's output normalizer (`transformProfile` in
    src/app/api/lookup/route.ts): a total projection of a raw profile onto
    the flat shape the page renders, with `0` for absent numbers and `[]` for
    absent lists. */
module Normalize {
  import opened Text
  import opened Wallet

  /** `d.is_primary` is truthy. */
  predicate Flagged(d: RawDomain) {
    d.isPrimary == Some(true)
  }

  /** The position `domains.find(d => d.is_primary)` stops at. */
  function FindPrimary(ds: seq<RawDomain>): (r: Option<nat>)
    ensures r.None? <==> forall k | 0 <= k < |ds| :: !Flagged(ds[k])
    ensures r.Some? ==> r.value < |ds| && Flagged(ds[r.value])
    ensures r.Some? ==> forall k | 0 <= k < r.value :: !Flagged(ds[k])
  {
    if |ds| == 0 then None
    else if Flagged(ds[0]) then Some(0)
    else match FindPrimary(ds[1..])
      case None => None
      case Some(k) => Some(k + 1)
  }

  /** `ensName`: the `domain` of the first entry flagged primary when it is a
      non-empty string, else the `domain` of the first entry when it is one,
      else `null`. */
  function PrimaryDomain(domains: Option<seq<RawDomain>>): (r: Option<string>)
    ensures r.Some? ==> r.value != ""
    ensures r.Some? ==> domains.Some? && exists i | 0 <= i < |domains.value| :: domains.value[i].domain == r
    ensures domains.None? || domains.value == [] ==> r.None?
  {
    var ds := domains.GetOr([]);
    var found := match FindPrimary(ds) case Some(k) => ds[k].domain case None => None;
    if Truthy(found) then found
    else if |ds| > 0 && Truthy(ds[0].domain) then ds[0].domain
    else None
  }

  /** A domain flagged primary is the one reported, wherever it stands in
      the list, as long as no earlier entry is flagged and its name is non-empty. */
  lemma PrimaryWinsAnywhere(ds: seq<RawDomain>, k: nat)
    requires k < |ds| && Flagged(ds[k]) && Truthy(ds[k].domain)
    requires forall j | 0 <= j < k :: !Flagged(ds[j])
    ensures PrimaryDomain(Some(ds)) == ds[k].domain
  {
  }

  /** When no entry is flagged, or the first flagged entry has no name (later
      flagged entries are never looked at), the first entry's name is
      reported, and nothing when that one is empty too. */
  lemma FirstDomainFallback(ds: seq<RawDomain>)
    requires FindPrimary(ds).None? || !Truthy(ds[FindPrimary(ds).value].domain)
    ensures PrimaryDomain(Some(ds)) == (if |ds| > 0 && Truthy(ds[0].domain) then ds[0].domain else None)
  {
  }

  // ---------------------------------------------------------------------
  // the projection

  /** `c => ({chain, txCount: c.tx_count || 0, balanceUsd: c.balance_usd || 0})`. */
  function NormalizeChain(c: RawChainActivity): (r: ChainActivity)
    ensures r.chain == c.chain
    ensures r.txCount == (if c.txCount.Some? then c.txCount.value else 0)
    ensures r.balanceUsd == (if c.balanceUsd.Some? then c.balanceUsd.value else 0.0)
  {
    ChainActivity(c.chain, c.txCount.GetOr(0), c.balanceUsd.GetOr(0.0))
  }

  /** The platform shown for a social link: the member itself when it is a
      string (even an empty one), else the descriptor's non-empty `value`,
      else `"unknown"`. */
  function PlatformOf(p: Option<RawPlatform>): (r: string)
    ensures p.Some? && p.value.PlatformName? ==> r == p.value.name
    ensures p.Some? && p.value.PlatformDescriptor? && Truthy(p.value.value) ==> r == p.value.value.value
    ensures p.Some? && p.value.PlatformDescriptor? && !Truthy(p.value.value) ==> r == "unknown"
    ensures r == "" <==> p == Some(PlatformName(""))
    ensures p.None? ==> r == "unknown"
  {
    match p
    case Some(PlatformName(n)) => n
    case Some(PlatformDescriptor(v)) => Or(v, "unknown")
    case None => "unknown"
  }

  function NormalizeLink(l: RawSocialLink): SocialLink {
    SocialLink(PlatformOf(l.platform), l.handle, l.url)
  }

  /** `profile.on_chain || {}`. */
  function OnChainOf(p: RawProfile): RawOnChain {
    p.onChain.GetOr(EmptyOnChain)
  }

  function RawChains(p: RawProfile): seq<RawChainActivity> {
    OnChainOf(p).chainsActive.GetOr([])
  }

  function RawCollections(p: RawProfile): seq<string> {
    OnChainOf(p).notableCollections.GetOr([])
  }

  function RawLinks(p: RawProfile): seq<RawSocialLink> {
    p.socialLinks.GetOr([])
  }

  /** `transformProfile`. Lists keep the length and order of the raw lists
      they come from, every NFT collection counts one item, token and
      transaction lists are always empty. */
  function Transform(p: RawProfile): (r: WalletProfile)
    ensures r.address == p.address && r.ensName == PrimaryDomain(p.domains)
    ensures r.tokens == [] && r.transactions == []
    ensures |r.chains| == |RawChains(p)|
    ensures forall i | 0 <= i < |r.chains| ::
      && r.chains[i].chain == RawChains(p)[i].chain
      && r.chains[i].txCount == RawChains(p)[i].txCount.GetOr(0)
      && r.chains[i].balanceUsd == RawChains(p)[i].balanceUsd.GetOr(0.0)
    ensures |r.nfts| == |RawCollections(p)|
    ensures forall i | 0 <= i < |r.nfts| :: r.nfts[i].name == RawCollections(p)[i] && r.nfts[i].count == 1
    ensures |r.socialLinks| == |RawLinks(p)|
    ensures forall i | 0 <= i < |r.socialLinks| ::
      && r.socialLinks[i].handle == RawLinks(p)[i].handle
      && r.socialLinks[i].url == RawLinks(p)[i].url
      && r.socialLinks[i].platform ==
        match RawLinks(p)[i].platform
        case Some(PlatformName(n)) => n
        case Some(PlatformDescriptor(v)) => if Truthy(v) then v.value else "unknown"
        case None => "unknown"
    ensures r.totalBalanceUsd == OnChainOf(p).totalBalanceUsd.GetOr(0.0)
    ensures r.totalTxCount == OnChainOf(p).txCount.GetOr(0)
    ensures r.tokenCount == OnChainOf(p).tokenCount.GetOr(0)
    ensures r.nftCount == OnChainOf(p).nftCount.GetOr(0)
    ensures r.walletAgeDays == OnChainOf(p).walletAgeDays.GetOr(0)
    ensures r.defiProtocols == OnChainOf(p).defiProtocols.GetOr([])
    ensures r.firstTxDate == OnChainOf(p).firstTxDate && r.lastTxDate == OnChainOf(p).lastTxDate
    ensures p.labels.None? ==> r.labels == []
    ensures p.labels.Some? ==> r.labels == p.labels.value
    ensures p.onChain.None? ==>
      && r.chains == [] && r.nfts == [] && r.defiProtocols == []
      && r.totalBalanceUsd == 0.0 && r.totalTxCount == 0
      && r.tokenCount == 0 && r.nftCount == 0 && r.walletAgeDays == 0
      && r.firstTxDate.None? && r.lastTxDate.None?
  {
    var oc := OnChainOf(p);
    var chains := RawChains(p);
    var names := RawCollections(p);
    var links := RawLinks(p);
    WalletProfile(
      address := p.address,
      ensName := PrimaryDomain(p.domains),
      labels := p.labels.GetOr([]),
      chains := seq(|chains|, i requires 0 <= i < |chains| => NormalizeChain(chains[i])),
      totalBalanceUsd := oc.totalBalanceUsd.GetOr(0.0),
      totalTxCount := oc.txCount.GetOr(0),
      tokens := [],
      nfts := seq(|names|, i requires 0 <= i < |names| => NftHolding(names[i], 1)),
      transactions := [],
      socialLinks := seq(|links|, i requires 0 <= i < |links| => NormalizeLink(links[i])),
      tokenCount := oc.tokenCount.GetOr(0),
      nftCount := oc.nftCount.GetOr(0),
      walletAgeDays := oc.walletAgeDays.GetOr(0),
      defiProtocols := oc.defiProtocols.GetOr([]),
      firstTxDate := oc.firstTxDate,
      lastTxDate := oc.lastTxDate)
  }

  /** The document with no members at all normalizes to the all-default profile. */
  lemma EmptyDocumentDefaults()
    ensures Transform(EmptyRaw) ==
      WalletProfile(None, None, [], [], 0.0, 0, [], [], [], [], 0, 0, 0, [], None, None)
  {
  }

  // ---------------------------------------------------------------------
  // the image of the projection

  /** The profiles the projection can produce: no tokens, no transactions,
      every NFT counted once, and an ENS name only when it is non-empty. */
  predicate Normalizable(w: WalletProfile) {
    && w.tokens == [] && w.transactions == []
    && (w.ensName.Some? ==> w.ensName.value != "")
    && forall i | 0 <= i < |w.nfts| :: w.nfts[i].count == 1
  }

  /** A document the profiler could send for a given profile: every member
      present, the ENS name as the one primary domain. */
  function RawOf(w: WalletProfile): RawProfile {
    var chains := seq(|w.chains|, i requires 0 <= i < |w.chains| =>
      RawChainActivity(w.chains[i].chain, Some(w.chains[i].txCount), Some(w.chains[i].balanceUsd)));
    var names := seq(|w.nfts|, i requires 0 <= i < |w.nfts| => w.nfts[i].name);
    var links := seq(|w.socialLinks|, i requires 0 <= i < |w.socialLinks| =>
      RawSocialLink(Some(PlatformName(w.socialLinks[i].platform)), w.socialLinks[i].handle, w.socialLinks[i].url));
    RawProfile(
      w.address,
      Some(if w.ensName.Some? then [RawDomain(w.ensName, Some(true))] else []),
      Some(links),
      Some(w.labels),
      Some(RawOnChain(w.firstTxDate, w.lastTxDate, Some(w.totalTxCount), Some(w.tokenCount),
                      Some(w.nftCount), Some(names), Some(w.totalBalanceUsd), Some(chains),
                      Some(w.defiProtocols), Some(w.walletAgeDays))))
  }

  /** Every normalized profile is of that shape. */
  lemma TransformIsNormalizable(p: RawProfile)
    ensures Normalizable(Transform(p))
  {
  }

  /** And every profile of that shape is produced: normalizing the document
      written for it gives it back, so no field is lost or altered on the way. */
  lemma TransformRoundTrip(w: WalletProfile)
    requires Normalizable(w)
    ensures Transform(RawOf(w)) == w
  {
    var p := RawOf(w);
    var r := Transform(p);
    if w.ensName.Some? {
      PrimaryWinsAnywhere(p.domains.value, 0);
    }
    assert r.chains == w.chains;
    assert r.nfts == w.nfts;
    assert r.socialLinks == w.socialLinks;
  }
}

=== FILE: page.dfy ===
/** The search page, src/app/page.tsx: the form's state machine around one
    lookup (`handleSearch`), the short form of an address, the colour class
    a label is drawn with, and the cut of the transaction list. */
module SearchPage {
  import opened Text
  import opened Http
  import opened Wallet
  import Normalize
  import AddressFormat
  import LookupRoute
  import Transport

  // ---------------------------------------------------------------------
  // shortenAddress

  function Min(a: int, b: int): int {
    if a <= b then a else b
  }

  /** `shortenAddress`: the first six characters, `...`, the last four; a
      string shorter than six (resp. four) contributes all of itself. */
  function ShortenAddress(a: string): (r: string)
    ensures |r| == Min(6, |a|) + 3 + Min(4, |a|)
    ensures r[..Min(6, |a|)] == a[..Min(6, |a|)]
    ensures r[Min(6, |a|)..Min(6, |a|) + 3] == "..."
    ensures r[|r| - Min(4, |a|)..] == a[|a| - Min(4, |a|)..]
  {
    var head := a[..Min(6, |a|)];
    var tail := a[|a| - Min(4, |a|)..];
    assert (head + "..." + tail)[..|head|] == head;
    assert (head + "..." + tail)[|head|..|head| + 3] == "...";
    head + "..." + tail
  }

  /** An address of ten or more characters shortens to thirteen, and the
      shortening keeps enough to tell the two ends apart: two addresses with
      the same short form agree on their first six and last four characters. */
  lemma ShortFormDeterminesEnds(a: string, b: string)
    requires |a| >= 10 && |b| >= 10
    requires ShortenAddress(a) == ShortenAddress(b)
    ensures |ShortenAddress(a)| == 13
    ensures a[..6] == b[..6] && a[|a| - 4..] == b[|b| - 4..]
  {
    var r := ShortenAddress(a);
    assert r[..6] == a[..6] && r[..6] == b[..6];
    assert r[9..] == a[|a| - 4..] && r[9..] == b[|b| - 4..];
  }

  lemma ShortenExample()
    ensures ShortenAddress("0xd8dA6BF26964aF9D7eEd9e03E53415D37aA96045") == "0xd8dA...6045"
  {
    var a := "0xd8dA6BF26964aF9D7eEd9e03E53415D37aA96045";
    assert a[0] == '0' && a[1] == 'x' && a[2] == 'd' && a[3] == '8' && a[4] == 'd' && a[5] == 'A';
    assert a[..6] == "0xd8dA";
    assert forall i | 0 <= i < 4 :: a[|a| - 4..][i] == "6045"[i];
  }

  // ---------------------------------------------------------------------
  // handleSearch

  /** The page's state: the input text, the loading flag, the error shown,
      and the profile shown. */
  datatype Form = Form(query: string, loading: bool, error: Option<string>, profile: Option<WalletProfile>)

  const Initial: Form := Form("", false, None, None)

  /** What can happen to the page: the input is edited, the form is
      submitted, or the request in flight completes with a transport outcome. */
  datatype Event =
    | Edit(text: string)
    | Submit
    | Completed(outcome: FetchOutcome)

  /** A new state and the request issued on the way, if any. */
  datatype Stepped = Stepped(form: Form, request: Option<Url>)

  const FetchDataFailed: string := "Failed to fetch wallet data"
  const ConnectFailed: string := "Failed to connect to server"

  /** The request a search sends: the trimmed input as `address`. */
  function SearchUrl(query: string): (u: Url)
    ensures u.path == LookupPath && u.base == ""
    ensures QueryGet(u.query, "address") == Some(Trim(query))
    ensures forall i | 0 <= i < |u.query| :: u.query[i].key == "address"
  {
    Url("", LookupPath, [Param("address", Trim(query))])
  }

  /** The input is blank when trimming leaves nothing. */
  predicate Blank(query: string) {
    AllWhitespace(query)
  }

  /** The endpoint reads a search as the trimmed input, no chain and no refresh. */
  lemma EndpointReadsSearch(query: string)
    ensures LookupRoute.ReadQuery(SearchUrl(query).query) == LookupRoute.LookupRequest(Some(Trim(query)), None, false)
  {
  }

  /** A non-blank search whose trimmed text is not an accepted address is
      refused by the endpoint as malformed, before any profiler call. */
  lemma MalformedSearchRefused(query: string, cfg: LookupRoute.Config, env: Transport.Env)
    requires !Blank(query) && !AddressFormat.IsValidAddress(Trim(query))
    ensures LookupRoute.HandleGet(SearchUrl(query).query, cfg, env)
         == LookupRoute.Handled(LookupRoute.BadRequest(LookupRoute.InvalidAddress), [])
  {
    EndpointReadsSearch(query);
  }

  /** One transition. A submission of a blank input does nothing; any other
      submission clears the error and the profile, sets the loading flag and
      issues the request. A completion clears the loading flag and shows the
      profile (OK and JSON), the body's `error` or `Failed to fetch wallet
      data` (not OK and JSON), or `Failed to connect to server` (the fetch
      rejected or the body is not JSON). */
  function Step(s: Form, e: Event, parse: string -> Parse<Doc<WalletProfile>>): (r: Stepped)
    ensures r.form.query == (if e.Edit? then e.text else s.query)
    ensures r.request.Some? <==> e.Submit? && !Blank(s.query)
    ensures r.request.Some? ==>
      && r.request.value == SearchUrl(s.query)
      && r.form.loading && r.form.error.None? && r.form.profile.None?
    ensures e.Submit? && Blank(s.query) ==> r.form == s
    ensures e.Edit? ==> r.form == s.(query := e.text)
    ensures e.Completed? ==> !r.form.loading
    ensures e.Completed? && s.profile.None? ==>
      var res := e.outcome;
      (r.form.profile.Some? <==> res.Responded? && IsOkStatus(res.status) && parse(res.body).Parsed?)
    ensures e.Completed? && s.profile.None? && r.form.profile.Some? ==>
      r.form.profile.value == parse(e.outcome.body).value.view && r.form.error == s.error
    ensures e.Completed? && r.form.profile.None? ==>
      r.form.error.Some? && r.form.error.value != "" && r.form.profile == s.profile
    ensures e.Completed? && (e.outcome.Rejected? || parse(e.outcome.body).SyntaxError?) ==>
      r.form.error == Some(ConnectFailed)
    ensures e.Completed? && e.outcome.Responded? && !IsOkStatus(e.outcome.status)
            && parse(e.outcome.body).Parsed? ==>
      var err := StringField(parse(e.outcome.body).value, "error");
      && (Truthy(err) ==> r.form.error == err)
      && (!Truthy(err) ==> r.form.error == Some(FetchDataFailed))
      && r.form.profile == s.profile
  {
    match e
    case Edit(t) => Stepped(s.(query := t), None)
    case Submit =>
      if Trim(s.query) == "" then Stepped(s, None)
      else Stepped(Form(s.query, true, None, None), Some(SearchUrl(s.query)))
    case Completed(res) =>
      var done := s.(loading := false);
      match res
      case Rejected(_) => Stepped(done.(error := Some(ConnectFailed)), None)
      case Responded(status, body) =>
        match parse(body)
        case SyntaxError(_) => Stepped(done.(error := Some(ConnectFailed)), None)
        case Parsed(doc) =>
          if IsOkStatus(status) then Stepped(done.(profile := Some(doc.view)), None)
          else Stepped(done.(error := Some(Or(StringField(doc, "error"), FetchDataFailed))), None)
  }

  /** The submit button is disabled while loading, and a completion only
      arrives for the request in flight. */
  predicate Enabled(s: Form, e: Event) {
    (e.Submit? ==> !s.loading) && (e.Completed? ==> s.loading)
  }

  /** The page never shows an error and a profile at once, and shows neither
      while loading. */
  predicate Inv(s: Form) {
    && !(s.error.Some? && s.profile.Some?)
    && (s.loading ==> s.error.None? && s.profile.None?)
  }

  lemma StepPreservesInv(s: Form, e: Event, parse: string -> Parse<Doc<WalletProfile>>)
    requires Inv(s) && Enabled(s, e)
    ensures Inv(Step(s, e, parse).form)
  {
  }

  /** A run of the page over a sequence of events, disabled events having no
      effect: the final state, the requests issued in order, and the number
      of completions. */
  datatype Session = Session(form: Form, requests: seq<Url>, completions: nat)

  function Run(s: Form, es: seq<Event>, parse: string -> Parse<Doc<WalletProfile>>): (r: Session)
    decreases |es|
  {
    if es == [] then Session(s, [], 0)
    else
      var e := es[0];
      var st := if Enabled(s, e) then Step(s, e, parse) else Stepped(s, None);
      var rest := Run(st.form, es[1..], parse);
      var issued := if st.request.Some? then [st.request.value] else [];
      Session(rest.form, issued + rest.requests,
              rest.completions + (if Enabled(s, e) && e.Completed? then 1 else 0))
  }

  function InFlight(s: Form): nat {
    if s.loading then 1 else 0
  }

  /** Over any run the invariant holds, and requests and completions balance:
      every request issued is completed except the one in flight. */
  lemma {:induction false} RunBalances(s: Form, es: seq<Event>, parse: string -> Parse<Doc<WalletProfile>>)
    requires Inv(s)
    ensures var r := Run(s, es, parse);
      && Inv(r.form)
      && InFlight(s) + |r.requests| == r.completions + InFlight(r.form)
    decreases |es|
  {
    if es != [] {
      var e := es[0];
      var st := if Enabled(s, e) then Step(s, e, parse) else Stepped(s, None);
      if Enabled(s, e) {
        StepPreservesInv(s, e, parse);
      }
      RunBalances(st.form, es[1..], parse);
    }
  }

  /** From the initial page, every request but at most one has been
      answered: the requests issued exceed the completions by the one in
      flight, if any. */
  lemma AtMostOneInFlight(es: seq<Event>, parse: string -> Parse<Doc<WalletProfile>>)
    ensures var r := Run(Initial, es, parse);
      && |r.requests| == r.completions + InFlight(r.form)
      && r.completions <= |r.requests| <= r.completions + 1
  {
    RunBalances(Initial, es, parse);
  }

  /** A search answered with the endpoint's 400 shows that answer's error. */
  lemma BadRequestShown(query: string, parse: string -> Parse<Doc<WalletProfile>>,
                        body: string, view: WalletProfile, message: string)
    requires !Blank(query) && message != ""
    requires parse(body) == Parsed(Doc(view, map["error" := message]))
    ensures var s1 := Step(Form(query, false, None, None), Submit, parse);
      var s2 := Step(s1.form, Completed(Responded(400, body)), parse);
      && s1.request == Some(SearchUrl(query))
      && s2.form == Form(query, false, Some(message), None)
  {
  }

  // ---------------------------------------------------------------------
  // name colours

  /** `LABEL_COLORS`: the eight labels with a colour of their own. */
  const LabelColors: map<string, string> := map[
    "Whale" := "bg-purple-500/20 text-purple-300 border-purple-500/30",
    "Mini Whale" := "bg-purple-400/20 text-purple-200 border-purple-400/30",
    "Power User" := "bg-blue-500/20 text-blue-300 border-blue-500/30",
    "Active" := "bg-blue-400/20 text-blue-200 border-blue-400/30",
    "NFT Collector" := "bg-pink-500/20 text-pink-300 border-pink-500/30",
    "NFT Holder" := "bg-pink-400/20 text-pink-200 border-pink-400/30",
    "Multi-Chain Degen" := "bg-green-500/20 text-green-300 border-green-500/30",
    "Multi-Chain User" := "bg-green-400/20 text-green-200 border-green-400/30"
  ]

  /** The class of every other name. */
  const GrayClass: string := "bg-gray-500/20 text-gray-300 border-gray-500/30"

  /** The names a plain object literal inherits from `Object.prototype`. */
  const PrototypeKeys: set<string> := {
    "constructor", "toString", "toLocaleString", "valueOf", "hasOwnProperty",
    "isPrototypeOf", "propertyIsEnumerable", "__proto__", "__defineGetter__",
    "__defineSetter__", "__lookupGetter__", "__lookupSetter__"
  }

  /** The class a name is drawn with, looking at the table's own entries
      only: a listed name gets its colour, every other name gray. */
  function LabelClass(name: string): (r: string)
    ensures r != ""
    ensures r == GrayClass <==> name !in LabelColors
    ensures name in LabelColors ==> r == LabelColors[name]
  {
    if name in LabelColors then LabelColors[name] else GrayClass
  }

  /** Each listed name has a colour distinct from every other. */
  lemma LabelColorsDistinct(a: string, b: string)
    requires a in LabelColors && b in LabelColors && a != b
    ensures LabelClass(a) != LabelClass(b)
  {
  }

  /** The text a template literal makes of an inherited member: the
      prototype object for `__proto__`, the `Object` constructor for
      `constructor`, and otherwise the built-in function of that name. */
  function InheritedText(key: string): string {
    if key == "__proto__" then "[object Object]"
    else if key == "constructor" then "function Object() { [native code] }"
    else "function " + key + "() { [native code] }"
  }

  /** The lookup as written: indexing the object literal also finds its
      inherited members, which are truthy, so the gray fallback is skipped. */
  function LabelClassAsWritten(name: string): (r: string)
    ensures name in LabelColors ==> r == LabelColors[name]
    ensures name !in LabelColors && name in PrototypeKeys ==> r != GrayClass
  {
    if name in LabelColors then LabelColors[name]
    else if name in PrototypeKeys then InheritedText(name)
    else GrayClass
  }

  /** The two lookups agree on every name that is not an inherited name. */
  lemma LookupsAgreeOffPrototype(name: string)
    requires name !in PrototypeKeys
    ensures LabelClassAsWritten(name) == LabelClass(name)
  {
  }

  /** A `toString` name is drawn with a function's source text as its
      class instead of gray. */
  lemma ToStringLabelMisses()
    ensures LabelClass("toString") == GrayClass
    ensures LabelClassAsWritten("toString") == InheritedText("toString")
    ensures LabelClassAsWritten("toString") != LabelClass("toString")
  {
    assert "toString" !in LabelColors.Keys;
    assert "toString" in PrototypeKeys;
    assert |InheritedText("toString")| != |GrayClass|;
  }

  /** A `constructor` name is drawn with the source text of `Object` as its
      class instead of gray. */
  lemma ConstructorLabelMisses()
    ensures LabelClass("constructor") == GrayClass
    ensures LabelClassAsWritten("constructor") == "function Object() { [native code] }"
    ensures LabelClassAsWritten("constructor") != LabelClass("constructor")
  {
    assert "constructor" !in LabelColors.Keys;
    assert "constructor" in PrototypeKeys;
    assert |InheritedText("constructor")| != |GrayClass|;
  }

  // ---------------------------------------------------------------------
  // transaction list

  const MaxShownTransactions: nat := 10

  /** The transactions listed: the first ten, in order. */
  function DisplayedTransactions(txs: seq<Transaction>): (r: seq<Transaction>)
    ensures |r| == Min(MaxShownTransactions, |txs|)
    ensures forall i | 0 <= i < |r| :: r[i] == txs[i]
  {
    txs[..Min(MaxShownTransactions, |txs|)]
  }

  /** Cutting twice is cutting once. */
  lemma DisplayedIdempotent(txs: seq<Transaction>)
    ensures DisplayedTransactions(DisplayedTransactions(txs)) == DisplayedTransactions(txs)
  {
  }

  /** The profiles the endpoint normalizes carry no transactions, so the
      list is always empty. */
  lemma NormalizedProfileShowsNoTransactions(raw: RawProfile)
    ensures DisplayedTransactions(Normalize.Transform(raw).transactions) == []
  {
  }
}

=== FILE: text.dfy ===
/** Strings as the application's JavaScript sees them: optional values and
    their truthiness, and the few `String` and `Array` built-ins the lookup
    endpoint, the client and the page rely on. */
module Text {

  /** A value that may be absent (`undefined` or `null` in the source). */
  datatype Option<+T> = None | Some(value: T) {

    /** The value, or `default` when absent. */
    function GetOr(default: T): T {
      if Some? then value else default
    }
  }

  /** An optional string in a boolean position: present and non-empty. */
  predicate Truthy(s: Option<string>) {
    s.Some? && s.value != ""
  }

  /** The value of the expression `s || fallback` for an optional string. */
  function Or(s: Option<string>, fallback: string): string {
    if Truthy(s) then s.value else fallback
  }

  /** `s.startsWith(t)`. */
  predicate StartsWith(s: string, t: string) {
    |t| <= |s| && s[..|t|] == t
  }

  /** `s.includes(t)`: `t` occurs somewhere in `s`. */
  predicate Contains(s: string, t: string) {
    exists i | 0 <= i <= |s| :: StartsWith(s[i..], t)
  }

  /** Text placed between two others occurs in the result. */
  lemma ContainsMiddle(a: string, t: string, b: string)
    ensures Contains(a + t + b, t)
  {
    var s := a + t + b;
    assert s[|a|..][..|t|] == t;
  }

  /** Every character of an occurring text is a character of the whole. */
  lemma ContainedCharsIn(s: string, t: string)
    ensures Contains(s, t) ==> forall k | 0 <= k < |t| :: t[k] in s
  {
    if Contains(s, t) {
      var i :| 0 <= i <= |s| && StartsWith(s[i..], t);
      forall k | 0 <= k < |t| ensures t[k] in s {
        assert t[k] == s[i + k];
      }
    }
  }

  /** A text holding a character the other lacks does not occur in it. */
  lemma MissingCharNotContained(s: string, t: string, c: char)
    requires c in t && c !in s
    ensures !Contains(s, t)
  {
    ContainedCharsIn(s, t);
  }

  // ---------------------------------------------------------------------
  // indexOf / lastIndexOf

  /** `s.indexOf(c)`: the first position holding `c`, if any. */
  function IndexOf(s: string, c: char): (r: Option<nat>)
    ensures r.None? <==> c !in s
    ensures r.Some? ==> r.value < |s| && s[r.value] == c
    ensures r.Some? ==> forall k | 0 <= k < r.value :: s[k] != c
  {
    if |s| == 0 then None
    else if s[0] == c then Some(0)
    else match IndexOf(s[1..], c)
      case None => None
      case Some(i) => Some(i + 1)
  }

  /** `s.lastIndexOf(c)`: the last position holding `c`, if any. */
  function LastIndexOf(s: string, c: char): (r: Option<nat>)
    ensures r.None? <==> c !in s
    ensures r.Some? ==> r.value < |s| && s[r.value] == c
    ensures r.Some? ==> forall k | r.value < k < |s| :: s[k] != c
  {
    if |s| == 0 then None
    else if s[|s| - 1] == c then Some(|s| - 1)
    else LastIndexOf(s[..|s| - 1], c)
  }

  /** The first occurrence is determined by the characters before it. */
  lemma IndexOfIs(s: string, c: char, i: nat)
    requires i < |s| && s[i] == c
    requires forall k | 0 <= k < i :: s[k] != c
    ensures IndexOf(s, c) == Some(i)
  {
  }

  /** The last occurrence is determined by the characters after it. */
  lemma LastIndexOfIs(s: string, c: char, j: nat)
    requires j < |s| && s[j] == c
    requires forall k | j < k < |s| :: s[k] != c
    ensures LastIndexOf(s, c) == Some(j)
  {
  }

  // ---------------------------------------------------------------------
  // trim

  /** White space removed by `String.prototype.trim`: the WhiteSpace and
      LineTerminator code points of ECMAScript. */
  predicate IsWhitespace(c: char) {
    || c == ' ' || c == '\t' || c == '\n' || c == '\r'
    || c == '\U{000B}' || c == '\U{000C}' || c == '\U{00A0}' || c == '\U{1680}'
    || ('\U{2000}' <= c <= '\U{200A}')
    || c == '\U{2028}' || c == '\U{2029}' || c == '\U{202F}' || c == '\U{205F}'
    || c == '\U{3000}' || c == '\U{FEFF}'
  }

  predicate AllWhitespace(s: string) {
    forall i | 0 <= i < |s| :: IsWhitespace(s[i])
  }

  /** The length of the white-space run that starts `s`. */
  function LeadingSpace(s: string): (n: nat)
    ensures n <= |s|
    ensures forall i | 0 <= i < n :: IsWhitespace(s[i])
    ensures n < |s| ==> !IsWhitespace(s[n])
  {
    if |s| > 0 && IsWhitespace(s[0]) then 1 + LeadingSpace(s[1..]) else 0
  }

  /** The length of the white-space run that ends `s`. */
  function TrailingSpace(s: string): (n: nat)
    ensures n <= |s|
    ensures forall i | |s| - n <= i < |s| :: IsWhitespace(s[i])
    ensures n < |s| ==> !IsWhitespace(s[|s| - 1 - n])
  {
    if |s| > 0 && IsWhitespace(s[|s| - 1]) then 1 + TrailingSpace(s[..|s| - 1]) else 0
  }

  /** `s.trim()`: `s` without its leading and trailing white space. */
  function Trim(s: string): (r: string)
    ensures |r| <= |s| - LeadingSpace(s)
    ensures r == s[LeadingSpace(s)..LeadingSpace(s) + |r|]
    ensures r == "" <==> AllWhitespace(s)
    ensures r != "" ==> !IsWhitespace(r[0]) && !IsWhitespace(r[|r| - 1])
    ensures AllWhitespace(s[LeadingSpace(s) + |r|..])
  {
    var a := LeadingSpace(s);
    var t := s[a..];
    var b := |t| - TrailingSpace(t);
    var r := t[..b];
    var tail := s[a + b..];
    assert AllWhitespace(tail) by {
      forall i | 0 <= i < |tail| ensures IsWhitespace(tail[i]) {
        assert tail[i] == t[b + i];
      }
    }
    r
  }

  /** Trimming twice is trimming once. */
  lemma TrimIdempotent(s: string)
    ensures Trim(Trim(s)) == Trim(s)
  {
    var r := Trim(s);
    if r != "" {
      assert LeadingSpace(r) == 0;
      assert TrailingSpace(r) == 0;
    }
  }

  // ---------------------------------------------------------------------
  // join / split

  /** `parts.join(sep)`. */
  function Join(parts: seq<string>, sep: string): string {
    if |parts| == 0 then ""
    else if |parts| == 1 then parts[0]
    else parts[0] + sep + Join(parts[1..], sep)
  }

  /** The pieces of `s` between occurrences of a one-character separator,
      empty pieces included. The source never splits a string itself: this is
      how the shell cuts the command line built by joining arguments with
      spaces into words, for lines without quotes or other shell syntax. */
  function Split(s: string, sep: char): (r: seq<string>)
    ensures |r| >= 1
    decreases |s|
  {
    match IndexOf(s, sep)
    case None => [s]
    case Some(i) => [s[..i]] + Split(s[i + 1..], sep)
  }

  /** The first piece of a split ends at the first separator. */
  lemma SplitAtFirst(p: string, rest: string, sep: char)
    requires sep !in p
    ensures Split(p + [sep] + rest, sep) == [p] + Split(rest, sep)
  {
    var s := p + [sep] + rest;
    assert s[|p|] == sep;
    forall k | 0 <= k < |p| ensures s[k] != sep {
      assert s[k] == p[k];
    }
    IndexOfIs(s, sep, |p|);
    assert s[..|p|] == p;
    assert s[|p| + 1..] == rest;
  }

  /** Splitting a join on the same separator gives the parts back, provided
      no part contains the separator. */
  lemma {:induction false} SplitJoin(parts: seq<string>, sep: char)
    requires |parts| >= 1
    requires forall i | 0 <= i < |parts| :: sep !in parts[i]
    ensures Split(Join(parts, [sep]), sep) == parts
  {
    if |parts| == 1 {
    } else {
      var rest := Join(parts[1..], [sep]);
      assert Join(parts, [sep]) == parts[0] + [sep] + rest;
      SplitAtFirst(parts[0], rest, sep);
      SplitJoin(parts[1..], sep);
      assert parts == [parts[0]] + parts[1..];
    }
  }

  /** Joining two non-empty lists is joining each and putting the separator
      between them. */
  lemma {:induction false} JoinAppend(a: seq<string>, b: seq<string>, sep: string)
    ensures |a| >= 1 && |b| >= 1 ==> Join(a + b, sep) == Join(a, sep) + sep + Join(b, sep)
    decreases |a|
  {
    if |a| >= 1 && |b| >= 1 {
      assert (a + b)[0] == a[0];
      assert (a + b)[1..] == a[1..] + b;
      if |a| > 1 {
        JoinAppend(a[1..], b, sep);
      }
    }
  }

  /** A character found in no part and not in the separator is not in the join. */
  lemma {:induction false} JoinAvoidsChar(parts: seq<string>, sep: string, c: char)
    requires forall i | 0 <= i < |parts| :: c !in parts[i]
    requires c !in sep
    ensures c !in Join(parts, sep)
  {
    if |parts| > 1 {
      JoinAvoidsChar(parts[1..], sep, c);
      assert c !in parts[0];
    }
  }

  /** Joining `a + sep + b` as one part is joining `a` and `b` as two. */
  lemma {:induction false} JoinSplitLast(p: seq<string>, a: string, b: string, sep: string)
    requires |p| >= 1
    ensures Join(p + [a + sep + b], sep) == Join(p + [a, b], sep)
    decreases |p|
  {
    if |p| == 1 {
      assert (p + [a + sep + b])[1..] == [a + sep + b];
      assert (p + [a, b])[1..] == [a, b];
      assert Join([a, b], sep) == a + sep + Join([b], sep);
    } else {
      assert (p + [a + sep + b])[1..] == p[1..] + [a + sep + b];
      assert (p + [a, b])[1..] == p[1..] + [a, b];
      JoinSplitLast(p[1..], a, b, sep);
    }
  }

  // ---------------------------------------------------------------------
  // numbers in template literals

  predicate IsDigit(c: char) {
    '0' <= c <= '9'
  }

  function DigitChar(d: nat): (c: char)
    requires d < 10
  {
    ('0' as int + d) as char
  }

  function DigitValue(c: char): nat
    requires IsDigit(c)
  {
    c as int - '0' as int
  }

  /** `${n}` for a non-negative integer: its decimal digits. */
  function NatToString(n: nat): (r: string)
    ensures |r| >= 1
    ensures forall i | 0 <= i < |r| :: IsDigit(r[i])
    ensures |r| > 1 ==> r[0] != '0'
  {
    if n < 10 then [DigitChar(n)] else NatToString(n / 10) + [DigitChar(n % 10)]
  }

  /** The number a string of decimal digits denotes. */
  function DigitsValue(s: string): nat
    requires forall i | 0 <= i < |s| :: IsDigit(s[i])
  {
    if |s| == 0 then 0 else DigitsValue(s[..|s| - 1]) * 10 + DigitValue(s[|s| - 1])
  }

  /** Reading back the decimal rendering of `n` gives `n`. */
  lemma {:induction false} NatToStringRoundTrip(n: nat)
    ensures DigitsValue(NatToString(n)) == n
  {
    if n >= 10 {
      var s := NatToString(n / 10);
      var r := NatToString(n);
      assert r == s + [DigitChar(n % 10)];
      assert r[..|r| - 1] == s;
      NatToStringRoundTrip(n / 10);
    }
  }
}

=== FILE: transport.dfy ===
/** The two ways the endpoint reaches the external profiler, from
    src/app/api/lookup/route.ts: `executeProfiler` runs the command-line tool
    (with one fallback to the module entry point), and
    `fetchFromExternalAPI` calls a remote profiler over HTTP. The subprocess
    and the network are the parameters `exec` and `fetch` of an environment.
    Each operation reports the calls it issued, in order. */
module Transport {
  import opened Text
  import opened Http
  import opened Wallet
  import opened ProfilerOutput
  import AddressFormat

  // ---------------------------------------------------------------------
  // the environment

  /** `maxBuffer` of both `exec` calls: 10 MiB. */
  const MaxBufferBytes: nat := 10 * 1024 * 1024
  /** `timeout` of both `exec` calls: 120 seconds. */
  const TimeoutMs: nat := 120000

  /** One `exec` call: the shell command line and its options. */
  datatype ExecRequest = ExecRequest(command: string, cwd: Option<string>, maxBuffer: nat, timeoutMs: nat)

  /** `error.code` of a failed `exec`: absent, a system error name such as
      `ENOENT` or `ETIMEDOUT`, or the child's exit status. */
  datatype ErrorCode = NoCode | Errno(name: string) | ExitStatus(status: int)

  /** The members of the error the `catch` blocks inspect. An absent `stderr`
      reads as the empty string. */
  datatype ExecError = ExecError(code: ErrorCode, signal: Option<string>, stderr: string, message: string)

  /** How an `exec` call settled. */
  datatype ExecOutcome = Exited(stdout: string, stderr: string) | ExecFailed(error: ExecError)

  /** An external call the endpoint issued. */
  datatype Call = Exec(request: ExecRequest) | Fetch(url: Url)

  /** The outside world: the subprocess runner, `fetch`, and `JSON.parse`
      (also behind `response.json()`). */
  datatype Env = Env(
    exec: ExecRequest -> ExecOutcome,
    fetch: Url -> FetchOutcome,
    parse: string -> Parse<Doc<RawProfile>>)

  /** A transport's result together with the calls it made. */
  datatype Transported = Transported(outcome: Outcome<RawProfile>, calls: seq<Call>)

  // ---------------------------------------------------------------------
  // command lines

  /** `baseArgs`: the address, `--json --quiet`, then `--chain <chain>` when a
      non-empty chain is given, then `--refresh` when refresh is set. */
  function BaseArgs(address: string, chain: Option<string>, refresh: bool): (args: seq<string>)
    ensures |args| == 3 + (if Truthy(chain) then 2 else 0) + (if refresh then 1 else 0)
    ensures args[..3] == [address, "--json", "--quiet"]
    ensures Truthy(chain) ==> args[3..5] == ["--chain", chain.value]
    ensures refresh ==> args[|args| - 1] == "--refresh"
    ensures "--chain" in args[1..] <==> Truthy(chain)
  {
    var args := [address, "--json", "--quiet"]
      + (if Truthy(chain) then ["--chain", chain.value] else [])
      + (if refresh then ["--refresh"] else []);
    assert args[1..] == ["--json", "--quiet"]
      + (if Truthy(chain) then ["--chain", chain.value] else [])
      + (if refresh then ["--refresh"] else []);
    args
  }

  const PrimaryPrefix: seq<string> := ["profiler", "lookup"]
  const FallbackPrefix: seq<string> := ["python3", "-m", "src.main", "lookup"]

  /** The command line of a program and arguments, words separated by one space. */
  function CommandLine(program: seq<string>, args: seq<string>): string {
    Join(program + args, " ")
  }

  /** The first attempt: `profiler lookup …` in the server's directory. */
  function PrimaryRequest(args: seq<string>): (r: ExecRequest)
    ensures |args| >= 1 ==> r.command == "profiler lookup " + Join(args, " ")
    ensures r.cwd.None? && r.maxBuffer == 10 * 1024 * 1024 && r.timeoutMs == 120000
  {
    JoinAppend(PrimaryPrefix, args, " ");
    ExecRequest(CommandLine(PrimaryPrefix, args), None, MaxBufferBytes, TimeoutMs)
  }

  /** The fallback: `python3 -m src.main lookup …` in the profiler's directory. */
  function FallbackRequest(args: seq<string>, profilerPath: string): (r: ExecRequest)
    ensures |args| >= 1 ==> r.command == "python3 -m src.main lookup " + Join(args, " ")
    ensures r.cwd == Some(profilerPath) && r.maxBuffer == 10 * 1024 * 1024 && r.timeoutMs == 120000
  {
    JoinAppend(FallbackPrefix, args, " ");
    ExecRequest(CommandLine(FallbackPrefix, args), Some(profilerPath), MaxBufferBytes, TimeoutMs)
  }

  /** When every argument is one shell word, the shell sees exactly the
      program words followed by the argument list. */
  lemma CommandLineWords(program: seq<string>, args: seq<string>)
    requires |program| >= 1
    requires forall i | 0 <= i < |program| :: AddressFormat.IsShellWord(program[i])
    requires forall i | 0 <= i < |args| :: AddressFormat.IsShellWord(args[i])
    ensures Split(CommandLine(program, args), ' ') == program + args
  {
    var words := program + args;
    forall i | 0 <= i < |words| ensures ' ' !in words[i] {
      assert AddressFormat.IsShellWord(words[i]);
    }
    SplitJoin(words, ' ');
  }

  /** The arguments built from an accepted address and a chain that is one
      shell word (or absent) are each one shell word, so both command lines
      carry exactly `baseArgs` after their program words. The endpoint does
      not check `chain`; a chain containing a space or a shell metacharacter
      is pasted into the command line as it is. */
  lemma RequestsCarryBaseArgs(address: string, chain: Option<string>, refresh: bool, profilerPath: string)
    requires AddressFormat.IsValidAddress(address)
    requires Truthy(chain) ==> AddressFormat.IsShellWord(chain.value)
    ensures var args := BaseArgs(address, chain, refresh);
      && Split(PrimaryRequest(args).command, ' ') == PrimaryPrefix + args
      && Split(FallbackRequest(args, profilerPath).command, ' ') == FallbackPrefix + args
  {
    var args := BaseArgs(address, chain, refresh);
    AddressFormat.ValidAddressIsShellWord(address);
    forall i | 0 <= i < |args| ensures AddressFormat.IsShellWord(args[i]) {
      if i >= 3 && Truthy(chain) && i < 5 {
        assert args[3..5][i - 3] == args[i];
      }
    }
    forall i | 0 <= i < |PrimaryPrefix| ensures AddressFormat.IsShellWord(PrimaryPrefix[i]) {
      assert PrimaryPrefix[i] in {"profiler", "lookup"};
    }
    forall i | 0 <= i < |FallbackPrefix| ensures AddressFormat.IsShellWord(FallbackPrefix[i]) {
      assert FallbackPrefix[i] in {"python3", "-m", "src.main", "lookup"};
    }
    CommandLineWords(PrimaryPrefix, args);
    CommandLineWords(FallbackPrefix, args);
  }

  /** The chain is pasted into the command line unchecked: a chain of
      `ethereum --refresh` reaches the shell as two words, so the profiler
      is asked to refresh although the request did not set `refresh`. */
  lemma ChainInjection(address: string)
    requires AddressFormat.IsValidAddress(address)
    ensures var args := BaseArgs(address, Some("ethereum --refresh"), false);
      var words := Split(PrimaryRequest(args).command, ' ');
      && words == PrimaryPrefix + [address, "--json", "--quiet", "--chain", "ethereum", "--refresh"]
      && words != PrimaryPrefix + args
      && words[|words| - 1] == "--refresh"
  {
    var args := BaseArgs(address, Some("ethereum --refresh"), false);
    var split := PrimaryPrefix + [address, "--json", "--quiet", "--chain", "ethereum", "--refresh"];
    assert Truthy(Some("ethereum --refresh"));
    assert |args| == 5;
    ChainWordsJoin(address, args);
    ChainWordsSplit(address, split);
    assert |split| == 8;
  }

  /** The injected chain as one word joins like two words. */
  lemma ChainWordsJoin(address: string, args: seq<string>)
    requires args == BaseArgs(address, Some("ethereum --refresh"), false)
    ensures PrimaryRequest(args).command
      == Join(PrimaryPrefix + [address, "--json", "--quiet", "--chain", "ethereum", "--refresh"], " ")
  {
    assert args == [address, "--json", "--quiet", "--chain", "ethereum --refresh"];
    var p := PrimaryPrefix + [address, "--json", "--quiet", "--chain"];
    assert PrimaryPrefix + args == p + ["ethereum --refresh"];
    assert "ethereum" + " " + "--refresh" == "ethereum --refresh";
    JoinSplitLast(p, "ethereum", "--refresh", " ");
    assert p + ["ethereum", "--refresh"]
      == PrimaryPrefix + [address, "--json", "--quiet", "--chain", "ethereum", "--refresh"];
  }

  /** The words of the injected command line contain no space. */
  lemma ChainWordsSplit(address: string, split: seq<string>)
    requires AddressFormat.IsValidAddress(address)
    requires split == PrimaryPrefix + [address, "--json", "--quiet", "--chain", "ethereum", "--refresh"]
    ensures Split(Join(split, " "), ' ') == split
  {
    AddressFormat.ValidAddressIsShellWord(address);
    assert ' ' !in address by {
      assert !AddressFormat.IsShellSafe(' ');
    }
    forall i | 0 <= i < |split| ensures ' ' !in split[i] {
      if i != 2 {
        assert split[i] in {"profiler", "lookup", "--json", "--quiet", "--chain", "ethereum", "--refresh"};
      }
    }
    SplitJoin(split, ' ');
  }

  // ---------------------------------------------------------------------
  // local mode

  const NotFoundMarker: string := "profiler: command not found"
  const TimedOutMessage: string := "Profiler request timed out. Please try again."
  const UnavailablePrefix: string :=
    "Failed to execute profiler. Make sure python3 is installed and the profiler is available at: "
  const ProfilerErrorPrefix: string := "Profiler error: "
  const UnknownExecError: string := "Unknown error occurred"

  /** One `exec` followed by `parseProfilerOutput`: the document, or the error
      the surrounding `catch` receives. A parse failure arrives there as a plain
      `Error` without code, signal or stderr. */
  datatype Attempt = Got(profile: RawProfile) | Caught(error: ExecError)

  function Run(request: ExecRequest, env: Env): (a: Attempt)
    ensures a.Got? <==> env.exec(request).Exited? && ParseProfilerOutput(env.exec(request).stdout, env.parse).Resolved?
    ensures env.exec(request).ExecFailed? ==> a == Caught(env.exec(request).error)
    ensures a.Got? ==> a.profile == ParseProfilerOutput(env.exec(request).stdout, env.parse).value
    ensures env.exec(request).Exited? && ParseProfilerOutput(env.exec(request).stdout, env.parse).Thrown? ==>
      a == Caught(ExecError(NoCode, None, "", ParseProfilerOutput(env.exec(request).stdout, env.parse).message))
  {
    match env.exec(request)
    case ExecFailed(e) => Caught(e)
    case Exited(stdout, _) =>
      match ParseProfilerOutput(stdout, env.parse)
      case Resolved(p) => Got(p)
      case Thrown(m) => Caught(ExecError(NoCode, None, "", m))
  }

  /** The command-not-found test of the first `catch`: a spawn error, or a
      message holding bash's wording anywhere. */
  predicate IsNotFound(e: ExecError): (r: bool)
    ensures e.code == Errno("ENOENT") ==> r
    ensures e.code != Errno("ENOENT") && 'c' !in e.message ==> !r
  {
    ContainedCharsIn(e.message, NotFoundMarker);
    assert NotFoundMarker[10] == 'c';
    e.code == Errno("ENOENT") || Contains(e.message, NotFoundMarker)
  }

  /** The timeout test, applied only when the error is not a not-found one. */
  predicate IsTimeout(e: ExecError): (r: bool)
    ensures e.signal == Some("SIGTERM") ==> r
    ensures e.code.ExitStatus? && e.signal.None? ==> !r
  {
    e.code == Errno("ETIMEDOUT") || e.signal == Some("SIGTERM")
  }

  /** The message for an error that is neither not-found nor a timeout:
      `Profiler error: ` and the error's stderr, else its message, else a
      generic text. */
  function GenericMessage(e: ExecError): (m: string)
    ensures StartsWith(m, ProfilerErrorPrefix)
    ensures e.stderr != "" ==> m == ProfilerErrorPrefix + e.stderr
    ensures e.stderr == "" && e.message != "" ==> m == ProfilerErrorPrefix + e.message
    ensures e.stderr == "" && e.message == "" ==> m == ProfilerErrorPrefix + UnknownExecError
  {
    ProfilerErrorPrefix + Or(Some(e.stderr), Or(Some(e.message), UnknownExecError))
  }

  /** Local mode with the fallback test as a parameter: the primary command
      runs first; exactly when it fails with an error the test accepts, the
      fallback runs once, in the profiler's directory, with the same
      arguments, and its failure of any kind is reported naming that
      directory. Otherwise a timeout gets its own message and any other
      failure is reported as a profiler error. */
  function ExecuteProfilerWith(fallsBack: ExecError -> bool, address: string, chain: Option<string>,
                               refresh: bool, profilerPath: string, env: Env): (r: Transported)
    ensures var args := BaseArgs(address, chain, refresh);
      var first := Run(PrimaryRequest(args), env);
      && 1 <= |r.calls| <= 2
      && r.calls[0] == Exec(PrimaryRequest(args))
      && (|r.calls| == 2 <==> first.Caught? && fallsBack(first.error))
      && (|r.calls| == 2 ==> r.calls[1] == Exec(FallbackRequest(args, profilerPath)))
      && (first.Got? ==> r.outcome == Resolved(first.profile))
      && (|r.calls| == 2 ==>
            var second := Run(FallbackRequest(args, profilerPath), env);
            r.outcome == if second.Got? then Resolved(second.profile)
                         else Thrown(UnavailablePrefix + profilerPath))
      && (first.Caught? && !fallsBack(first.error) ==>
            r.outcome == Thrown(if IsTimeout(first.error) then TimedOutMessage
                                else GenericMessage(first.error)))
  {
    var args := BaseArgs(address, chain, refresh);
    var primary := PrimaryRequest(args);
    match Run(primary, env)
    case Got(p) => Transported(Resolved(p), [Exec(primary)])
    case Caught(e) =>
      if fallsBack(e) then
        var fallback := FallbackRequest(args, profilerPath);
        var outcome := match Run(fallback, env)
          case Got(p) => Resolved(p)
          case Caught(_) => Thrown(UnavailablePrefix + profilerPath);
        Transported(outcome, [Exec(primary), Exec(fallback)])
      else if IsTimeout(e) then
        Transported(Thrown(TimedOutMessage), [Exec(primary)])
      else
        Transported(Thrown(GenericMessage(e)), [Exec(primary)])
  }

  /** `executeProfiler`, whose fallback test is `IsNotFound`: a spawn error,
      or a message holding bash's wording for a missing command. */
  function ExecuteProfiler(address: string, chain: Option<string>, refresh: bool,
                           profilerPath: string, env: Env): (r: Transported)
    ensures var args := BaseArgs(address, chain, refresh);
      var first := Run(PrimaryRequest(args), env);
      && 1 <= |r.calls| <= 2
      && r.calls[0] == Exec(PrimaryRequest(args))
      && (|r.calls| == 2 <==> first.Caught? && IsNotFound(first.error))
      && (|r.calls| == 2 ==> r.calls[1] == Exec(FallbackRequest(args, profilerPath)))
      && (first.Got? ==> r.outcome == Resolved(first.profile))
      && (|r.calls| == 2 ==>
            var second := Run(FallbackRequest(args, profilerPath), env);
            r.outcome == if second.Got? then Resolved(second.profile)
                         else Thrown(UnavailablePrefix + profilerPath))
      && (first.Caught? && !IsNotFound(first.error) ==>
            r.outcome == Thrown(if IsTimeout(first.error) then TimedOutMessage
                                else GenericMessage(first.error)))
  {
    ExecuteProfilerWith(IsNotFound, address, chain, refresh, profilerPath, env)
  }

  /** The source's not-found test widened to every command line `/bin/sh`
      could not run because the program is not on the path: `exec` reports
      the shell's exit status 127, whatever the shell prints. */
  predicate IsMissingCommand(e: ExecError) {
    IsNotFound(e) || e.code == ExitStatus(127)
  }

  /** Local mode falling back on every missing command, whichever shell
      prints the error. */
  function ExecuteProfilerCorrected(address: string, chain: Option<string>, refresh: bool,
                                    profilerPath: string, env: Env): (r: Transported)
    ensures var args := BaseArgs(address, chain, refresh);
      var first := Run(PrimaryRequest(args), env);
      && 1 <= |r.calls| <= 2
      && r.calls[0] == Exec(PrimaryRequest(args))
      && (|r.calls| == 2 <==> first.Caught? && IsMissingCommand(first.error))
      && (first.Caught? && first.error.code == ExitStatus(127) ==>
            r.calls == [Exec(PrimaryRequest(args)), Exec(FallbackRequest(args, profilerPath))])
  {
    ExecuteProfilerWith(IsMissingCommand, address, chain, refresh, profilerPath, env)
  }

  /** The correction changes nothing unless the first run ends with the
      shell's exit status 127. */
  lemma CorrectedAgreesOffExit127(address: string, chain: Option<string>, refresh: bool,
                                  profilerPath: string, env: Env)
    requires var first := Run(PrimaryRequest(BaseArgs(address, chain, refresh)), env);
      first.Caught? ==> first.error.code != ExitStatus(127)
    ensures ExecuteProfilerCorrected(address, chain, refresh, profilerPath, env)
      == ExecuteProfiler(address, chain, refresh, profilerPath, env)
  {
  }

  /** Every message local mode throws is non-empty. */
  lemma LocalMessagesNonEmpty(address: string, chain: Option<string>, refresh: bool,
                              profilerPath: string, env: Env)
    ensures var r := ExecuteProfiler(address, chain, refresh, profilerPath, env);
      r.outcome.Thrown? ==> r.outcome.message != ""
  {
  }

  /** A primary run whose output does not parse is not reported as a parse
      failure of its own: the `catch` wraps it as a profiler error (unless the
      parse message happens to contain the not-found marker). */
  lemma PrimaryParseFailureIsWrapped(address: string, chain: Option<string>, refresh: bool,
                                     profilerPath: string, env: Env)
    requires var req := PrimaryRequest(BaseArgs(address, chain, refresh));
      && env.exec(req).Exited?
      && ParseProfilerOutput(env.exec(req).stdout, env.parse).Thrown?
      && !Contains(ParseProfilerOutput(env.exec(req).stdout, env.parse).message, NotFoundMarker)
    ensures var r := ExecuteProfiler(address, chain, refresh, profilerPath, env);
      && |r.calls| == 1
      && r.outcome.Thrown?
      && StartsWith(r.outcome.message, ProfilerErrorPrefix + ParseFailurePrefix)
  {
    var req := PrimaryRequest(BaseArgs(address, chain, refresh));
    var m := ParseProfilerOutput(env.exec(req).stdout, env.parse).message;
    var e := ExecError(NoCode, None, "", m);
    assert Run(req, env) == Caught(e);
    assert GenericMessage(e) == ProfilerErrorPrefix + m;
    assert (ProfilerErrorPrefix + m)[..|ProfilerErrorPrefix + ParseFailurePrefix|]
        == ProfilerErrorPrefix + m[..|ParseFailurePrefix|];
  }

  // ---------------------------------------------------------------------
  // remote mode

  const RemoteUnknownError: string := "Unknown error"

  /** The remote endpoint's request: `<base>/api/lookup` with the shared
      lookup query. */
  function RemoteUrl(apiUrl: string, address: string, chain: Option<string>, refresh: bool): Url {
    Url(apiUrl, LookupPath, LookupQuery(address, chain, refresh))
  }

  /** `fetchFromExternalAPI`: one request; a rejected fetch propagates its
      message; a non-OK response throws the body's `detail`, else
      `API returned <status>`, and `Unknown error` when the body is not JSON;
      an OK response resolves to its parsed body, or throws the parser's message. */
  function FetchFromApi(apiUrl: string, address: string, chain: Option<string>, refresh: bool,
                        env: Env): (r: Transported)
    ensures r.calls == [Fetch(RemoteUrl(apiUrl, address, chain, refresh))]
    ensures var res := env.fetch(RemoteUrl(apiUrl, address, chain, refresh));
      && (r.outcome.Resolved? <==> res.Responded? && IsOkStatus(res.status) && env.parse(res.body).Parsed?)
      && (r.outcome.Resolved? ==> r.outcome.value == env.parse(res.body).value.view)
      && (res.Rejected? ==> r.outcome == Thrown(res.message))
      && (res.Responded? && IsOkStatus(res.status) && env.parse(res.body).SyntaxError? ==>
            r.outcome == Thrown(env.parse(res.body).message))
      && (res.Responded? && !IsOkStatus(res.status) ==> r.outcome.Thrown? && r.outcome.message != "")
      && (res.Responded? && !IsOkStatus(res.status) && env.parse(res.body).SyntaxError? ==>
            r.outcome.message == RemoteUnknownError)
      && (res.Responded? && !IsOkStatus(res.status) && env.parse(res.body).Parsed?
          && Truthy(StringField(env.parse(res.body).value, "detail")) ==>
            r.outcome.message == StringField(env.parse(res.body).value, "detail").value)
      && (res.Responded? && !IsOkStatus(res.status) && env.parse(res.body).Parsed?
          && !Truthy(StringField(env.parse(res.body).value, "detail")) ==>
            r.outcome.message == "API returned " + NatToString(res.status))
  {
    var url := RemoteUrl(apiUrl, address, chain, refresh);
    var outcome :=
      match env.fetch(url)
      case Rejected(m) => Thrown(m)
      case Responded(status, body) =>
        if !IsOkStatus(status) then
          match env.parse(body)
          case SyntaxError(_) => Thrown(RemoteUnknownError)
          case Parsed(doc) => Thrown(Or(StringField(doc, "detail"), "API returned " + NatToString(status)))
        else
          match env.parse(body)
          case Parsed(doc) => Resolved(doc.view)
          case SyntaxError(m) => Thrown(m);
    Transported(outcome, [Fetch(url)])
  }

  /** A non-OK remote answer never resolves, and the status code can be read
      back from the generic message. */
  lemma RemoteStatusInMessage(apiUrl: string, address: string, chain: Option<string>, refresh: bool,
                              env: Env, status: nat, body: string, doc: Doc<RawProfile>)
    requires env.fetch(RemoteUrl(apiUrl, address, chain, refresh)) == Responded(status, body)
    requires !IsOkStatus(status) && env.parse(body) == Parsed(doc) && !Truthy(StringField(doc, "detail"))
    ensures var m := FetchFromApi(apiUrl, address, chain, refresh, env).outcome.message;
      && StartsWith(m, "API returned ")
      && m[|"API returned "|..] == NatToString(status)
      && DigitsValue(m[|"API returned "|..]) == status
  {
    var m := FetchFromApi(apiUrl, address, chain, refresh, env).outcome.message;
    assert m == "API returned " + NatToString(status);
    assert m[|"API returned "|..] == NatToString(status);
    NatToStringRoundTrip(status);
  }
}

=== FILE: wallet.dfy ===
/** The two profile shapes: the raw document the external profiler produces
    (the interfaces of src/types/wallet.ts, restricted to the members the
    endpoint reads and with every member optional, since the endpoint never
    trusts the document), and the flat shape the endpoint returns and the page
    renders (the interfaces at the top of src/app/page.tsx). JSON numbers are
    `int` for counts and `real` for US-dollar amounts. */
module Wallet {
  import opened Text

  // ---------------------------------------------------------------------
  // raw profile, as produced by the profiler

  datatype RawChainActivity = RawChainActivity(
    chain: Option<string>,
    txCount: Option<int>,
    balanceUsd: Option<real>)

  datatype RawOnChain = RawOnChain(
    firstTxDate: Option<string>,
    lastTxDate: Option<string>,
    txCount: Option<int>,
    tokenCount: Option<int>,
    nftCount: Option<int>,
    notableCollections: Option<seq<string>>,
    totalBalanceUsd: Option<real>,
    chainsActive: Option<seq<RawChainActivity>>,
    defiProtocols: Option<seq<string>>,
    walletAgeDays: Option<int>)

  /** The `platform` member of a social link: a plain string, or a platform
      descriptor whose `value` names it. */
  datatype RawPlatform = PlatformName(name: string) | PlatformDescriptor(value: Option<string>)

  datatype RawSocialLink = RawSocialLink(
    platform: Option<RawPlatform>,
    handle: Option<string>,
    url: Option<string>)

  datatype RawDomain = RawDomain(domain: Option<string>, isPrimary: Option<bool>)

  datatype RawProfile = RawProfile(
    address: Option<string>,
    domains: Option<seq<RawDomain>>,
    socialLinks: Option<seq<RawSocialLink>>,
    labels: Option<seq<string>>,
    onChain: Option<RawOnChain>)

  /** A raw profile with no members at all. */
  const EmptyRaw: RawProfile := RawProfile(None, None, None, None, None)

  /** `on_chain` with every member absent, which is what `{}` reads as. */
  const EmptyOnChain: RawOnChain :=
    RawOnChain(None, None, None, None, None, None, None, None, None, None)

  // ---------------------------------------------------------------------
  // normalized profile, as returned to the page

  datatype ChainActivity = ChainActivity(chain: Option<string>, txCount: int, balanceUsd: real)

  datatype TokenHolding = TokenHolding(symbol: string, name: string, balance: real, valueUsd: real)

  datatype NftHolding = NftHolding(name: string, count: int)

  /** A transaction row; `methodName` is the source's `method` member. */
  datatype Transaction = Transaction(
    date: string, methodName: string, valueEth: real, to: string, direction: string, status: string)

  datatype SocialLink = SocialLink(platform: string, handle: Option<string>, url: Option<string>)

  datatype WalletProfile = WalletProfile(
    address: Option<string>,
    ensName: Option<string>,
    labels: seq<string>,
    chains: seq<ChainActivity>,
    totalBalanceUsd: real,
    totalTxCount: int,
    tokens: seq<TokenHolding>,
    nfts: seq<NftHolding>,
    transactions: seq<Transaction>,
    socialLinks: seq<SocialLink>,
    tokenCount: int,
    nftCount: int,
    walletAgeDays: int,
    defiProtocols: seq<string>,
    firstTxDate: Option<string>,
    lastTxDate: Option<string>)
}
